=== FILE: README.md ===
# BatchInsert — a Dafny model of PostgreSQL bulk insert

The model covers `Messaia.Net.PostgreSQL.BulkExtensions.BatchInsert`. It bulk-loads a
batch of Entity Framework Core records into a PostgreSQL table through Npgsql's binary
`COPY ... FROM STDIN BINARY` importer. There are two overloads of `Execute<TEntity>`:

- **By class** (`Execute`): the entity type is found through the record class. Table name
  and schema come from its mapping. Property accessors are looked up on the class.
- **By table name** (`ExecuteForTable`): the entity type is the first one whose table has
  the given name. The schema is the caller's. Accessors are looked up on the run-time type
  of the first record, and a missing accessor reads as null (`?.`).

Both overloads run the same pipeline:

1. Reject a null context or a null batch.
2. Return 0 for an empty batch.
3. Find the entity type.
4. Select the non-key properties as columns, in model order.
5. Build the COPY command.
6. Open the importer, then write `StartRow` and one field call per column for every non-null record.
7. Complete the import and return the batch size, null records included.

Modules:

| module | file | contents |
|---|---|---|
| `Wrappers` | wrappers.dfy | `Option`, `Result` |
| `Seqs` | seqs.dfy | `RowStart`, the offset of row `k` in a trace of fixed-width rows |
| `Metadata` | metadata.dfy | values, records, the model's entity types and properties, the two lookups, `IsNullOrWhiteSpace` |
| `Errors` | errors.dfy | the exceptions the insert can end with |
| `Columns` | columns.dfy | column descriptors and the non-key column selection |
| `CopyCommand` | copycommand.dfy | the command text, the escaped variant, and a reader that applies PostgreSQL's quoting and case rules to the text |
| `RowWriter` | rowwriter.dfy | importer events, value reading, field choice, row and batch streaming |
| `BatchInsert` | batchinsert.dfy | the shared encoder `Import`, the two entry points and their corrected variants |

How the source's pieces are represented:

- **Records.** A record is a map from the property names of its run-time type to a value,
  where `None` is a null value. A batch is a sequence of `Option<Record>`, where `None` is
  a null record.
- **Type mapping.** Npgsql's type mapping is a parameter `TypeMapping = string -> Option<WireType>`.
- **Result of a call.** A call yields an `Outcome`: the sequence of importer calls, then
  either the returned count or the exception.
  - The first event is always `BeginBinaryImport(command)`, so an empty trace means the importer was never opened.
  - A call that throws keeps the events written before the exception and never contains `Complete`.

The by-table overload binds accessors once, to the first record's run-time type
(`BatchInsert.cs:190`, `:223`):

- A property that type lacks has no accessor and is written as null in every row
  (`UnboundColumnWritesNull`).
- A later record whose type lacks a bound property makes `GetValue` throw
  (`MismatchedRecordFails`).

## Model

| member | source | states |
|---|---|---|
| Metadata.FindEntityType | Messaia.Net.PostgreSQL.BulkExtensions/BatchInsert.cs:68 | an entity type is found exactly when one in the model maps the class, and the one found maps it |
| Metadata.FindEntityTypeByTable | Messaia.Net.PostgreSQL.BulkExtensions/BatchInsert.cs:193-196 | an entity type is found exactly when the table name is not null and some entity type has that table name; the one found is the first such in model order |
| Metadata.FirstIndex | Messaia.Net.PostgreSQL.BulkExtensions/BatchInsert.cs:196 | `FirstOrDefault`: the index found satisfies the predicate and no earlier element does; none is found only when no element does |
| Columns.Describe | Messaia.Net.PostgreSQL.BulkExtensions/BatchInsert.cs:85-98 | a column carries its property's name, column name and column type; its accessor exists exactly when the class declares the property; its tag is the type mapping of the property's CLR type |
| Columns.SelectColumns | Messaia.Net.PostgreSQL.BulkExtensions/BatchInsert.cs:83-100 | every column describes a non-key property, and every non-key property is described by a column |
| Columns.SelectColumnsAppend | Messaia.Net.PostgreSQL.BulkExtensions/BatchInsert.cs:83-100 | the selection of a concatenation is the concatenation of the selections, so model order is kept |
| Columns.SelectColumnsEmpty | Messaia.Net.PostgreSQL.BulkExtensions/BatchInsert.cs:83-84 | the column list is empty exactly when every property is part of the primary key |
| Columns.SelectColumnsNames | Messaia.Net.PostgreSQL.BulkExtensions/BatchInsert.cs:83-100 | the column names are exactly the non-key properties' column names in model order, whatever type the accessors are bound to |
| CopyCommand.Build | Messaia.Net.PostgreSQL.BulkExtensions/BatchInsert.cs:103-108 | the command cannot be built exactly when there are no columns (`Aggregate` on an empty list), and that error is `NoColumns` |
| CopyCommand.SchemaPrefix | Messaia.Net.PostgreSQL.BulkExtensions/BatchInsert.cs:105 | a schema prefix is written exactly when the schema is neither null nor blank, and it is the schema followed by a dot |
| CopyCommand.JoinCons | Messaia.Net.PostgreSQL.BulkExtensions/BatchInsert.cs:107 | the left fold of `Aggregate` (`Join`) is the first part, `, `, then the join of the rest, so the parts appear once each, in order |
| CopyCommand.BuildRoundTrip | Messaia.Net.PostgreSQL.BulkExtensions/BatchInsert.cs:103-108 | when no table or column name contains a double quote and the schema is null, blank or an unquoted identifier, reading the command back by PostgreSQL's quoting and case rules gives the schema folded to lower case (absent when null or blank), the table and the column list it was built from |
| CopyCommand.UnescapedQuoteCollision | Messaia.Net.PostgreSQL.BulkExtensions/BatchInsert.cs:107 | the column list `[a", "b]` and the list `[a, b]` give the same command text |
| CopyCommand.UnquotedSchemaFolded | Messaia.Net.PostgreSQL.BulkExtensions/BatchInsert.cs:105 | the command for the schema `Sales` names the schema `sales`, the same schema as the command for `sales` |
| CopyCommand.BuildEscapedRoundTrip | Messaia.Net.PostgreSQL.BulkExtensions/BatchInsert.cs:103-108 | with schema, table and column names quoted and inner quotes doubled, reading the command back by PostgreSQL's quoting rules gives the schema (absent when null or blank), the table and the columns, whatever quotes, capitals or other characters they contain; the server's limits on names (non-empty, at most 63 bytes, no character with code zero) are not part of the reader |
| CopyCommand.BuildEscapedInjective | Messaia.Net.PostgreSQL.BulkExtensions/BatchInsert.cs:103-108 | with schema, table and column names quoted and inner quotes doubled, different schemas, tables or column lists always give different commands |
| RowWriter.NonNull | Messaia.Net.PostgreSQL.BulkExtensions/BatchInsert.cs:113-118 | a record is among those written exactly when it occurs non-null in the batch |
| RowWriter.NonNullCount | Messaia.Net.PostgreSQL.BulkExtensions/BatchInsert.cs:113-118 | one record is written per non-null entry of the batch: only the nulls are dropped, and equal records are not merged |
| RowWriter.NonNullAppend | Messaia.Net.PostgreSQL.BulkExtensions/BatchInsert.cs:113-118 | the records written for a concatenation are those of the first part followed by those of the second, so input order is kept |
| RowWriter.ReadValue | Messaia.Net.PostgreSQL.BulkExtensions/BatchInsert.cs:256 | a bound accessor reads the record's value; an unbound one reads null through `?.` and throws `MissingAccessor` when dereferenced directly; an accessor the record's type lacks throws `TargetMismatch` |
| RowWriter.EncodeValue | Messaia.Net.PostgreSQL.BulkExtensions/BatchInsert.cs:128-142 | null, and only null, gives `WriteNull`; a tag wins and the value goes out unchanged; without a tag the column type is used and an enumeration member goes out as its `int`; only a non-`int` enumeration without a tag throws `InvalidEnumCast` |
| RowWriter.FieldEvent | Messaia.Net.PostgreSQL.BulkExtensions/BatchInsert.cs:126-142 | reading or converting a field can only throw a row error |
| RowWriter.EncodeFields | Messaia.Net.PostgreSQL.BulkExtensions/BatchInsert.cs:123-143 | the field calls are those of the leading columns in column order; the row is complete exactly when no column failed, and otherwise stops at the first failing column with its exception |
| RowWriter.RowOkIff | Messaia.Net.PostgreSQL.BulkExtensions/BatchInsert.cs:123-143 | a row can be written in full exactly when each of its columns can |
| RowWriter.EncodeRows | Messaia.Net.PostgreSQL.BulkExtensions/BatchInsert.cs:113-144 | only rows and field calls are written; the batch goes through exactly when every non-null record can be written; it can fail only with a row error |
| RowWriter.EncodeRowsSuccess | Messaia.Net.PostgreSQL.BulkExtensions/BatchInsert.cs:113-144 | a batch that goes through is the rows of its non-null records, in input order |
| RowWriter.EncodeRowsCount | Messaia.Net.PostgreSQL.BulkExtensions/BatchInsert.cs:113-121 | a batch that goes through starts exactly one row per non-null record |
| RowWriter.RowsLayout | Messaia.Net.PostgreSQL.BulkExtensions/BatchInsert.cs:113-143 | the rows are `|columns| + 1` events wide: row `k` starts with `StartRow` at `k * (|columns| + 1)`, and field `i` of that row is the field call of column `i` for the `k`-th non-null record |
| RowWriter.NullRecordSkipped | Messaia.Net.PostgreSQL.BulkExtensions/BatchInsert.cs:115-118 | inserting a null record anywhere in the batch leaves the stream unchanged |
| RowWriter.NonNullSkipsNull | Messaia.Net.PostgreSQL.BulkExtensions/BatchInsert.cs:115-118 | inserting a null record anywhere leaves the non-null records unchanged |
| RowWriter.EncodeRowsNoMismatch | Messaia.Net.PostgreSQL.BulkExtensions/BatchInsert.cs:113-126 | when every non-null record has the property of every column with an accessor, the batch never fails with `TargetMismatch` |
| RowWriter.EncodeRowsFailure | Messaia.Net.PostgreSQL.BulkExtensions/BatchInsert.cs:113-143 | a batch that fails stops in the first non-null record that cannot be written: the rows before it are complete and its own row is cut at the failing column |
| BatchInsert.Command | Messaia.Net.PostgreSQL.BulkExtensions/BatchInsert.cs:103-108 | with either quoting, the command fails exactly when there are no columns, with `NoColumns` |
| BatchInsert.Import | Messaia.Net.PostgreSQL.BulkExtensions/BatchInsert.cs:110-150 | the count is the batch size, null records included; without columns nothing is opened and the result is `NoColumns`; with columns the importer is opened first, with the built command; the import succeeds exactly when there are columns and every row goes through; a failed import has no `Complete` and ends with a row error |
| BatchInsert.ImportSucceeds | Messaia.Net.PostgreSQL.BulkExtensions/BatchInsert.cs:107-147 | the import succeeds exactly when there are columns and every non-null record can be written in full |
| BatchInsert.ImportCompletesOnce | Messaia.Net.PostgreSQL.BulkExtensions/BatchInsert.cs:146-147 | a successful import calls `Complete` exactly once, as its last call |
| BatchInsert.Execute | Messaia.Net.PostgreSQL.BulkExtensions/BatchInsert.cs:35-151 | a null context or batch is rejected with the parameter's name and no importer activity; an empty batch returns 0 with no activity; an unmapped class fails with `MappingNotFound` before the importer is opened; a success returns the batch size; a failure never completes |
| BatchInsert.ExecuteForTable | Messaia.Net.PostgreSQL.BulkExtensions/BatchInsert.cs:160-281 | the same argument checks, empty-batch result and count; an unknown table name fails with `MappingNotFound` before the importer is opened |
| BatchInsert.ImportLayout | Messaia.Net.PostgreSQL.BulkExtensions/BatchInsert.cs:113-147 | between opening and completion, row `k` starts with `StartRow` and holds the field call of every column, in column order, for the `k`-th non-null record |
| BatchInsert.ImportRowCount | Messaia.Net.PostgreSQL.BulkExtensions/BatchInsert.cs:113-121 | a successful import has one `StartRow` per non-null record |
| BatchInsert.ImportFailure | Messaia.Net.PostgreSQL.BulkExtensions/BatchInsert.cs:110-148 | a failed import stops inside the first non-null record that cannot be written, with the exception of its failing column |
| BatchInsert.ImportNullRecord | Messaia.Net.PostgreSQL.BulkExtensions/BatchInsert.cs:113-150 | a null record anywhere changes no importer call and adds one to a successful count |
| BatchInsert.ImportUnboundNull | Messaia.Net.PostgreSQL.BulkExtensions/BatchInsert.cs:256-261 | with `?.`, a column without an accessor is written as `WriteNull` in every row |
| BatchInsert.ExecuteCommand | Messaia.Net.PostgreSQL.BulkExtensions/BatchInsert.cs:103-111 | when the entity type has a non-key property, its table and column names contain no `"` and its schema is null, blank or an unquoted identifier, the by-class insert opens the importer with a command naming the mapped table, the mapped schema folded to lower case (none when null or blank) and exactly the non-key columns in model order, whether or not the rows go through |
| BatchInsert.ExecuteForTableCommand | Messaia.Net.PostgreSQL.BulkExtensions/BatchInsert.cs:233-241 | when the first record is not null, the entity type found has a non-key property, the table and column names contain no `"` and the caller's schema is null, blank or an unquoted identifier, the by-table insert names the caller's table and the caller's schema folded to lower case (none when null or blank), with the non-key columns of the first entity type that has that table name |
| BatchInsert.ExecuteSucceeds | Messaia.Net.PostgreSQL.BulkExtensions/BatchInsert.cs:83-150 | for a mapped class and a non-empty batch, the insert succeeds exactly when the entity type has a non-key column and every non-null record can be written |
| BatchInsert.ExecuteRowCount | Messaia.Net.PostgreSQL.BulkExtensions/BatchInsert.cs:113-121 | a successful by-class insert starts one row per non-null record |
| BatchInsert.ExecuteSkipsNullRecord | Messaia.Net.PostgreSQL.BulkExtensions/BatchInsert.cs:113-150 | for the by-class insert, a null record anywhere changes no importer call and adds one to a successful count |
| BatchInsert.ExecuteForTableSkipsLaterNullRecord | Messaia.Net.PostgreSQL.BulkExtensions/BatchInsert.cs:243-280 | for the by-table insert, the same holds for a null record behind the first record |
| BatchInsert.LeadingNullRecordFails | Messaia.Net.PostgreSQL.BulkExtensions/BatchInsert.cs:190-223 | by table, a batch whose first record is null fails with `ArgumentNull("type")` and no importer activity when the table has a non-key column |
| BatchInsert.FirstRecordType | Messaia.Net.PostgreSQL.BulkExtensions/BatchInsert.cs:190 | `FirstOrDefault()?.GetType()`: a record type is known exactly when the first record is there and is not null, and it is that record's type |
| BatchInsert.ExecuteForTableFixed | Messaia.Net.PostgreSQL.BulkExtensions/BatchInsert.cs:160-281 | the corrected by-table insert keeps the argument checks and count, and never fails for want of a record type; the quoting of identifiers is a parameter, so the binding fix is stated on its own and with escaping |
| BatchInsert.ExecuteForTableFixedSkipsNullRecord | Messaia.Net.PostgreSQL.BulkExtensions/BatchInsert.cs:243-248 | the corrected by-table insert, with either quoting, skips a null record wherever it stands, the first place included |
| BatchInsert.FirstNonNullType | Messaia.Net.PostgreSQL.BulkExtensions/BatchInsert.cs:190 | a record type is known exactly when the batch holds a non-null record, and it is the type of the first non-null record, with only nulls before it |
| BatchInsert.ExecuteFixed | Messaia.Net.PostgreSQL.BulkExtensions/BatchInsert.cs:35-151 | the by-class insert with escaped identifiers keeps the argument checks, empty-batch result and count |
| BatchInsert.ExecuteFixedCommand | Messaia.Net.PostgreSQL.BulkExtensions/BatchInsert.cs:103-111 | when the entity type has a non-key property, the by-class insert with escaped identifiers opens the importer with a command naming the mapped schema (none when null or blank), the mapped table and exactly its non-key columns, whatever quotes or capitals they contain |
| BatchInsert.MissingAccessorFails | Messaia.Net.PostgreSQL.BulkExtensions/BatchInsert.cs:93-126 | by class, a non-key property the class does not declare makes any batch with a non-null record fail, and the import is not completed |
| BatchInsert.ExecuteOfClassNoMismatch | Messaia.Net.PostgreSQL.BulkExtensions/BatchInsert.cs:35-126 | by class, a batch whose records are instances of the class (`IEnumerable<TEntity>`) never fails with `TargetMismatch`: every accessor belongs to the records it reads |
| BatchInsert.MismatchedRecordFails | Messaia.Net.PostgreSQL.BulkExtensions/BatchInsert.cs:223-256 | by table, a record lacking a property of the first record's type, for a non-key column, makes the import fail without completion |
| BatchInsert.UnboundColumnWritesNull | Messaia.Net.PostgreSQL.BulkExtensions/BatchInsert.cs:256-261 | by table, a non-key column whose property the first record's type lacks is written as null in every row |

## Left out

- Connection handling (`BatchInsert.cs:56-62`, `181-187`) is left out: it checks the connection state and opens it, which is I/O on an external object. The cast `connection as NpgsqlConnection` is assumed to succeed.
- Construction of `NpgsqlTypeMappingSource` and `FindMapping` (`BatchInsert.cs:74-80`, `95`) belong to a foreign library. They are the `TypeMapping` parameter.
- EF Core metadata is not modelled as an API. `Relational()`, `GetProperties()`, `IsPrimaryKey()` and the private-reflection read of `EntityType` (`BatchInsert.cs:199-201`) become the plain data in `Metadata`, and a failed lookup becomes `MappingNotFound`. That one error stands for two exceptions: by class, the extension call `Relational()` on a null entity type (`:71`), which EF Core rejects with an argument check; by table, the `NullReferenceException` of `tableMetadata.GetType()` on null (`:199`). An entity type whose table name is null is not modelled.
- The byte layout of the binary COPY format is Npgsql's writer, not this code. This covers the header, field counts, length prefixes and trailer. Only the calls made on the importer are modelled.
- Disposal by `using` and database-side errors from `Complete` are left out. The model only keeps `Complete` off every failing path.
- The batch is an `IEnumerable` that the code enumerates several times. The by-class overload enumerates it three times: `Count()` at `:50`, `foreach` at `:113` and `Count()` at `:150`. The by-table overload enumerates it four times: `Count()` at `:175`, `FirstOrDefault()` at `:190`, `foreach` at `:243` and `Count()` at `:280`. It is modelled as one fixed sequence, so a lazy sequence that changes between enumerations is not modelled.
- The values `PropertyType` and `IsNullable` are captured in the column record but never read afterwards. `Column.isNullable` carries `IsNullable` and no operation reads it. `PropertyType` is used only through the type mapping, in `Column.wireType`. The column type is passed to `Write` as given, `None` when no store type is configured. What Npgsql does with a null type name is its business.
- `AmbiguousMatchException` from `GetProperty` on a class with two properties of the same name is left out. Property names form a set.
- `DbContextExtensions.cs` only forwards to the two overloads, so it is not modelled separately.
- BatchInsert.Import: every call on the importer is assumed to succeed. `BeginBinaryImport(command)` (`:111`, `:241`) throws when the server rejects the command, for instance for a wrong schema or table. `Write(value, NpgsqlDbType)` and `Write(value, string)` (`:137`, `:141`, `:267`, `:271`) throw when Npgsql rejects a value for its tag or type name. So "succeeds exactly when" in `Import`, `ImportSucceeds` and `ExecuteSucceeds`, and "fails only with a row error" in `Import` and `RowWriter.EncodeRows`, hold only for an importer that accepts every command and value.
- BatchInsert.Execute: the batch is any sequence of records, while the source's `IEnumerable<TEntity>` holds only instances of the class. A record lacking a property the class declares makes the model fail with `TargetMismatch`, an input the source cannot receive. `RowWriter.OfClass` states the source's typing, and under it `ExecuteOfClassNoMismatch` rules that failure out.
- RowWriter.ReadValue: the check that a record is an instance of the accessor's declaring type is approximated by the record having the property's name. A record of an unrelated type that happens to share every bound property name is treated as compatible, where .NET would throw `TargetException`.
- CopyCommand.Parse: the reader accepts only ASCII letters, digits, `_` and `$` in an unquoted schema name, and folds only ASCII capitals. PostgreSQL also accepts other letters, rejects reserved key words, and reads `a.b` as a database and a schema; the reader reads none of these as a command, so the as-written round trip asks for an unquoted identifier as schema. The reader also leaves out three limits PostgreSQL puts on every name: a name longer than 63 bytes (NAMEDATALEN - 1) is cut to 63 bytes, an empty quoted name `""` is rejected, and the character with code zero is not allowed. The round trips therefore hold for the reader, and for the server only with non-empty names of at most 63 bytes without that character.
- Metadata.IsWhiteSpace: the set of characters is written out from .NET's `char.IsWhiteSpace`, not derived from Unicode category data.

## Findings

| source | as written | input that shows it | evidently intended | confidence | as-written member | corrected member |
|---|---|---|---|---|---|---|
| Messaia.Net.PostgreSQL.BulkExtensions/BatchInsert.cs:190 | The by-table overload takes the record type from the first element. When that element is null, the type is null and `GetRuntimeProperty` throws `ArgumentNullException("type")`. | A batch `[null, r]` for a table with one non-key column. | Null records are skipped wherever they stand, as the loop at lines 245-248 does. The type comes from the first non-null record. | high; not executed | BatchInsert.LeadingNullRecordFails | BatchInsert.ExecuteForTableFixedSkipsNullRecord |
| Messaia.Net.PostgreSQL.BulkExtensions/BatchInsert.cs:107 | Table and column names are put between double quotes without doubling quotes inside them. | The column lists `[a", "b]` and `[a, b]` give the same command. | Each identifier is quoted as PostgreSQL reads it, with inner quotes doubled, so the command names exactly the given columns. | medium; not executed | CopyCommand.UnescapedQuoteCollision | CopyCommand.BuildEscapedRoundTrip |
| Messaia.Net.PostgreSQL.BulkExtensions/BatchInsert.cs:105 | The schema is written without quotes, while the table and columns are quoted. PostgreSQL folds an unquoted name to lower case. | A mapped schema `Sales`: the command `COPY Sales."t" ...` names the schema `sales`. | The schema is quoted and escaped like the table, so the command names the mapped schema exactly. | medium; not executed | CopyCommand.UnquotedSchemaFolded | CopyCommand.BuildEscapedRoundTrip |

=== FILE: batchinsert.dfy ===
/** The two bulk-insert entry points and the encoder they share.

    Both check their arguments, return 0 for an empty batch without touching the
    importer, find the entity type, select the non-key columns, build the COPY command,
    stream the rows and complete the import, and return the number of records they were
    given, null records included. They differ in where the table identity comes from and
    in how property accessors are bound:

    - `Execute` finds the entity type by the record class and reads the table and schema
      from it; accessors are looked up on that class, and a missing one is dereferenced.
    - `ExecuteForTable` finds the first entity type with the given table name and uses the
      given schema; accessors are looked up on the run-time type of the first record, and
      a missing one reads as null. */
module BatchInsert {
  import opened Wrappers
  import opened Metadata
  import opened Errors
  import opened Columns
  import opened CopyCommand
  import opened RowWriter
  import opened Seqs

  /** What one call leaves behind: the importer calls in order, and the returned count
      or the exception thrown. */
  datatype Outcome = Outcome(trace: seq<Event>, result: Result<nat, Error>)

  /** A call that wrote nothing: no importer was opened. */
  predicate NoWriterActivity(o: Outcome)
  {
    o.trace == []
  }

  /** How identifiers are put into the COPY command: as the insert does it, or escaped. */
  datatype Quoting = Unescaped | Escaped

  function Command(q: Quoting, schema: Option<string>, table: string, columns: seq<string>): (r: Result<string, Error>)
    ensures r.Err? <==> |columns| == 0
    ensures r.Err? ==> r.error == NoColumns
  {
    match q
    case Unescaped => Build(schema, table, columns)
    case Escaped => BuildEscaped(schema, table, columns)
  }

  /** The shared encoder: builds the command, opens the importer with it, streams the
      rows and completes the import. `Complete` is reached only when every row was
      written; an exception leaves the import uncompleted. */
  function Import(q: Quoting, schema: Option<string>, table: string, cols: seq<Column>, mode: AccessMode,
                  entities: seq<Option<Record>>): (o: Outcome)
    requires |entities| > 0
    // the count is the number of records supplied, null records included
    ensures o.result.Ok? ==> o.result.value == |entities|
    // an import that throws is never completed
    ensures o.result.Err? ==> Complete !in o.trace
    // once the command is built, the only exceptions are those of writing a row
    ensures o.result.Err? && |cols| > 0 ==> IsRowError(o.result.error)
    // without columns there is no command, so the importer is never opened
    ensures |cols| == 0 ==> o == Outcome([], Err(NoColumns))
    // with columns, the importer is opened first, with the built command
    ensures |cols| > 0 ==>
              && |o.trace| >= 1
              && o.trace[0] == BeginBinaryImport(Command(q, schema, table, ColumnNames(cols)).value)
    // the import succeeds exactly when there are columns and every row goes through
    ensures o.result.Ok? <==> |cols| > 0 && EncodeRows(cols, mode, entities).failure.None?
  {
    match Command(q, schema, table, ColumnNames(cols))
    case Err(e) => Outcome([], Err(e))
    case Ok(command) =>
      var rows := EncodeRows(cols, mode, entities);
      if rows.failure.Some? then
        Outcome([BeginBinaryImport(command)] + rows.events, Err(rows.failure.value))
      else
        assert Complete !in rows.events;
        Outcome([BeginBinaryImport(command)] + rows.events + [Complete], Ok(|entities|))
  }

  /** Bulk insert of records of a mapped class (the first overload). */
  function Execute(context: Option<Model>, entityClass: ClrClass, entities: Option<seq<Option<Record>>>,
                   mapping: TypeMapping): (o: Outcome)
    ensures context.None? ==> o == Outcome([], Err(ArgumentNull("dbContext")))
    ensures context.Some? && entities.None? ==> o == Outcome([], Err(ArgumentNull("entities")))
    ensures context.Some? && entities == Some([]) ==> o == Outcome([], Ok(0))
    ensures o.result.Ok? ==> entities.Some? && o.result.value == |entities.value|
    ensures o.result.Err? ==> Complete !in o.trace
    // an unmapped class fails before the importer is opened
    ensures context.Some? && entities.Some? && |entities.value| > 0
            && FindEntityType(context.value, entityClass.name).None?
            ==> o == Outcome([], Err(MappingNotFound))
  {
    if context.None? then Outcome([], Err(ArgumentNull("dbContext")))
    else if entities.None? then Outcome([], Err(ArgumentNull("entities")))
    else if |entities.value| == 0 then Outcome([], Ok(0))
    else
      match FindEntityType(context.value, entityClass.name)
      case None => Outcome([], Err(MappingNotFound))
      case Some(entityType) =>
        var cols := SelectColumns(entityType.properties, mapping, entityClass.propertyNames);
        Import(Unescaped, entityType.schema, entityType.tableName, cols, Direct, entities.value)
  }

  /** The property names of the first record's run-time type, if the first record is not null. */
  function FirstRecordType(entities: seq<Option<Record>>): (t: Option<set<string>>)
    // a type is known only when the first record is there and is not null
    ensures t.Some? <==> |entities| > 0 && entities[0].Some?
    ensures t.Some? ==> t.value == entities[0].value.Keys
  {
    if |entities| > 0 && entities[0].Some? then Some(entities[0].value.Keys) else None
  }

  /** The columns of an entity type with accessors bound to the given run-time type; with
      no type known, no accessor is bound. */
  function BoundColumns(entityType: EntityType, mapping: TypeMapping, classType: Option<set<string>>): seq<Column>
  {
    SelectColumns(entityType.properties, mapping, if classType.Some? then classType.value else {})
  }

  /** Bulk insert into a table named explicitly (the second overload). */
  function ExecuteForTable(context: Option<Model>, tableName: Option<string>, entities: Option<seq<Option<Record>>>,
                           schema: Option<string>, mapping: TypeMapping): (o: Outcome)
    ensures context.None? ==> o == Outcome([], Err(ArgumentNull("dbContext")))
    ensures context.Some? && entities.None? ==> o == Outcome([], Err(ArgumentNull("entities")))
    ensures context.Some? && entities == Some([]) ==> o == Outcome([], Ok(0))
    ensures o.result.Ok? ==> entities.Some? && o.result.value == |entities.value|
    ensures o.result.Err? ==> Complete !in o.trace
    // an unknown table name fails before the importer is opened
    ensures context.Some? && entities.Some? && |entities.value| > 0
            && FindEntityTypeByTable(context.value, tableName).None?
            ==> o == Outcome([], Err(MappingNotFound))
  {
    if context.None? then Outcome([], Err(ArgumentNull("dbContext")))
    else if entities.None? then Outcome([], Err(ArgumentNull("entities")))
    else if |entities.value| == 0 then Outcome([], Ok(0))
    else
      match FindEntityTypeByTable(context.value, tableName)
      case None => Outcome([], Err(MappingNotFound))
      case Some(entityType) =>
        var classType := FirstRecordType(entities.value);
        var cols := BoundColumns(entityType, mapping, classType);
        if classType.None? && |cols| > 0 then Outcome([], Err(ArgumentNull("type")))
        else Import(Unescaped, schema, tableName.value, cols, NullConditional, entities.value)
  }

  /** The run-time type of the first non-null record, the one the corrected insert binds
      accessors to. */
  function FirstNonNullType(entities: seq<Option<Record>>): (t: Option<set<string>>)
    ensures t.Some? <==> exists r :: Some(r) in entities
    // and it is the type of the first record that is not null
    ensures t.Some? ==> exists i :: && 0 <= i < |entities| && entities[i].Some?
                                   && t.value == entities[i].value.Keys
                                   && forall j :: 0 <= j < i ==> entities[j].None?
  {
    var records := NonNull(entities);
    if |records| > 0 then
      NonNullHead(entities);
      Some(records[0].Keys)
    else
      assert forall r :: Some(r) in entities ==> r in records;
      None
  }

  /** The table-name insert as evidently intended: accessors are bound to the first record
      that is not null, so null records are skipped wherever they stand. The quoting of
      identifiers is a parameter, so the binding fix stands on its own (`Unescaped`) or with
      escaped identifiers (`Escaped`). */
  function ExecuteForTableFixed(q: Quoting, context: Option<Model>, tableName: Option<string>,
                                entities: Option<seq<Option<Record>>>, schema: Option<string>,
                                mapping: TypeMapping): (o: Outcome)
    ensures context.None? ==> o == Outcome([], Err(ArgumentNull("dbContext")))
    ensures context.Some? && entities.None? ==> o == Outcome([], Err(ArgumentNull("entities")))
    ensures context.Some? && entities == Some([]) ==> o == Outcome([], Ok(0))
    ensures o.result.Ok? ==> entities.Some? && o.result.value == |entities.value|
    ensures o.result.Err? ==> Complete !in o.trace
    // the run-time type of the records is never dereferenced when it is unknown
    ensures o.result != Err(ArgumentNull("type"))
  {
    if context.None? then Outcome([], Err(ArgumentNull("dbContext")))
    else if entities.None? then Outcome([], Err(ArgumentNull("entities")))
    else if |entities.value| == 0 then Outcome([], Ok(0))
    else
      match FindEntityTypeByTable(context.value, tableName)
      case None => Outcome([], Err(MappingNotFound))
      case Some(entityType) =>
        var classType := FirstNonNullType(entities.value);
        var cols := BoundColumns(entityType, mapping, classType);
        Import(q, schema, tableName.value, cols, NullConditional, entities.value)
  }

  /** The class-based insert with identifiers escaped in the command. */
  function ExecuteFixed(context: Option<Model>, entityClass: ClrClass, entities: Option<seq<Option<Record>>>,
                        mapping: TypeMapping): (o: Outcome)
    ensures context.None? ==> o == Outcome([], Err(ArgumentNull("dbContext")))
    ensures context.Some? && entities.None? ==> o == Outcome([], Err(ArgumentNull("entities")))
    ensures context.Some? && entities == Some([]) ==> o == Outcome([], Ok(0))
    ensures o.result.Ok? ==> entities.Some? && o.result.value == |entities.value|
    ensures o.result.Err? ==> Complete !in o.trace
  {
    if context.None? then Outcome([], Err(ArgumentNull("dbContext")))
    else if entities.None? then Outcome([], Err(ArgumentNull("entities")))
    else if |entities.value| == 0 then Outcome([], Ok(0))
    else
      match FindEntityType(context.value, entityClass.name)
      case None => Outcome([], Err(MappingNotFound))
      case Some(entityType) =>
        var cols := SelectColumns(entityType.properties, mapping, entityClass.propertyNames);
        Import(Escaped, entityType.schema, entityType.tableName, cols, Direct, entities.value)
  }

  // ---------------------------------------------------------------------------------
  // Properties of the encoder

  /** A successful import writes one row per non-null record, in order: a `StartRow`
      followed by one field per column, each as `FieldEvent` prescribes, between the
      opening of the importer and its completion. Row `k` starts at `RowStart(k, |cols| + 1)`,
      that is at `k * (|cols| + 1)` (`RowStartIsProduct`). */
  lemma ImportLayout(q: Quoting, schema: Option<string>, table: string, cols: seq<Column>, mode: AccessMode,
                     entities: seq<Option<Record>>, k: nat, i: nat)
    requires |entities| > 0
    requires Import(q, schema, table, cols, mode, entities).result.Ok?
    requires k < |NonNull(entities)| && i < |cols|
    ensures |Import(q, schema, table, cols, mode, entities).trace| == RowStart(|NonNull(entities)|, |cols| + 1) + 2
    ensures 1 + RowStart(k, |cols| + 1) + 1 + i < |Import(q, schema, table, cols, mode, entities).trace|
    ensures Import(q, schema, table, cols, mode, entities).trace[1 + RowStart(k, |cols| + 1)] == StartRow
    ensures Ok(Import(q, schema, table, cols, mode, entities).trace[1 + RowStart(k, |cols| + 1) + 1 + i])
            == FieldEvent(cols[i], mode, NonNull(entities)[k])
  {
    var events := ImportTrace(q, schema, table, cols, mode, entities);
    RowsAt(cols, mode, entities, k, i);
    var trace := Import(q, schema, table, cols, mode, entities).trace;
    var start := RowStart(k, |cols| + 1);
    assert trace[1 + start] == events[start];
    assert trace[1 + start + 1 + i] == events[start + 1 + i];
  }

  /** A successful import is the rows between the opening of the importer and its completion. */
  lemma ImportTrace(q: Quoting, schema: Option<string>, table: string, cols: seq<Column>, mode: AccessMode,
                    entities: seq<Option<Record>>) returns (events: seq<Event>)
    requires |entities| > 0
    requires Import(q, schema, table, cols, mode, entities).result.Ok?
    ensures events == EncodeRows(cols, mode, entities).events
    ensures |Import(q, schema, table, cols, mode, entities).trace| == |events| + 2
    ensures forall j :: 0 <= j < |events| ==> Import(q, schema, table, cols, mode, entities).trace[1 + j] == events[j]
  {
    var rows := EncodeRows(cols, mode, entities);
    var command := Command(q, schema, table, ColumnNames(cols));
    assert command.Ok? && rows.failure.None?;
    events := rows.events;
    var tail := events + [Complete];
    var trace := [BeginBinaryImport(command.value)] + tail;
    assert Import(q, schema, table, cols, mode, entities).trace == trace;
    forall j | 0 <= j < |events|
      ensures trace[1 + j] == events[j]
    {
      assert trace[1 + j] == tail[j];
    }
  }

  /** The import succeeds exactly when there are columns and every non-null record can be
      written in full. */
  lemma ImportSucceeds(q: Quoting, schema: Option<string>, table: string, cols: seq<Column>, mode: AccessMode,
                       entities: seq<Option<Record>>)
    requires |entities| > 0
    ensures Import(q, schema, table, cols, mode, entities).result.Ok?
            <==> |cols| > 0 && forall r :: r in NonNull(entities) ==> RowOk(cols, mode, r)
  {
    var rows := EncodeRows(cols, mode, entities);
    assert rows.failure.None? <==> forall r :: r in NonNull(entities) ==> RowOk(cols, mode, r);
  }

  /** A successful import completes the importer once, as its last call. */
  lemma ImportCompletesOnce(q: Quoting, schema: Option<string>, table: string, cols: seq<Column>, mode: AccessMode,
                            entities: seq<Option<Record>>)
    requires |entities| > 0
    requires Import(q, schema, table, cols, mode, entities).result.Ok?
    ensures |Import(q, schema, table, cols, mode, entities).trace| >= 2
    ensures Import(q, schema, table, cols, mode, entities).trace[|Import(q, schema, table, cols, mode, entities).trace| - 1]
            == Complete
    ensures multiset(Import(q, schema, table, cols, mode, entities).trace)[Complete] == 1
  {
    var events := EncodeRows(cols, mode, entities).events;
    var command := BeginBinaryImport(Command(q, schema, table, ColumnNames(cols)).value);
    assert Import(q, schema, table, cols, mode, entities).trace == [command] + events + [Complete];
    assert Complete !in events;
    assert multiset(events)[Complete] == 0;
  }

  /** A successful import starts exactly one row per non-null record. */
  lemma ImportRowCount(q: Quoting, schema: Option<string>, table: string, cols: seq<Column>, mode: AccessMode,
                       entities: seq<Option<Record>>)
    requires |entities| > 0
    requires Import(q, schema, table, cols, mode, entities).result.Ok?
    ensures multiset(Import(q, schema, table, cols, mode, entities).trace)[StartRow] == |NonNull(entities)|
  {
    EncodeRowsCount(cols, mode, entities);
  }

  /** A failed import stops inside the first record that cannot be written: the rows
      before it are complete, and its own row is cut short at the failing column. */
  lemma ImportFailure(q: Quoting, schema: Option<string>, table: string, cols: seq<Column>, mode: AccessMode,
                      entities: seq<Option<Record>>)
    requires |entities| > 0 && |cols| > 0
    requires Import(q, schema, table, cols, mode, entities).result.Err?
    ensures exists k :: 0 <= k < |NonNull(entities)|
              && !RowOk(cols, mode, NonNull(entities)[k])
              && (forall j :: 0 <= j < k ==> RowOk(cols, mode, NonNull(entities)[j]))
              && Import(q, schema, table, cols, mode, entities).trace[1..]
                 == RowsOf(cols, mode, NonNull(entities)[..k]) + Row(cols, mode, NonNull(entities)[k])
              && Import(q, schema, table, cols, mode, entities).result
                 == Err(EncodeFields(cols, mode, NonNull(entities)[k]).failure.value)
  {
    var rows := EncodeRows(cols, mode, entities);
    EncodeRowsFailure(cols, mode, entities);
    var k :| FailsAt(cols, mode, entities, k);
    var o := Import(q, schema, table, cols, mode, entities);
    assert o.trace[1..] == rows.events;
  }

  /** Null records contribute nothing but their place in the count. */
  lemma ImportNullRecord(q: Quoting, schema: Option<string>, table: string, cols: seq<Column>, mode: AccessMode,
                         a: seq<Option<Record>>, b: seq<Option<Record>>)
    requires |a + b| > 0
    ensures Import(q, schema, table, cols, mode, a + [None] + b).trace == Import(q, schema, table, cols, mode, a + b).trace
    ensures Import(q, schema, table, cols, mode, a + [None] + b).result
            == match Import(q, schema, table, cols, mode, a + b).result
               case Ok(n) => Ok(n + 1)
               case Err(e) => Err(e)
  {
    NullRecordSkipped(cols, mode, a, b);
  }

  // ---------------------------------------------------------------------------------
  // Properties of the entry points

  /** The column names in the command come from the model's properties. */
  lemma ColumnNamesQuoteFree(props: seq<Property>, mapping: TypeMapping, accessors: set<string>)
    requires forall p :: p in props ==> QuoteFree(p.columnName)
    ensures forall i :: 0 <= i < |ColumnNames(SelectColumns(props, mapping, accessors))| ==>
              QuoteFree(ColumnNames(SelectColumns(props, mapping, accessors))[i])
  {
    var cols := SelectColumns(props, mapping, accessors);
    forall i | 0 <= i < |ColumnNames(cols)|
      ensures QuoteFree(ColumnNames(cols)[i])
    {
      assert cols[i] in cols;
    }
  }

  /** The class-based insert opens the importer with a command that names the mapped
      table and exactly its non-key columns in model order, as long as no table or column
      name contains a double quote; the mapped schema, written without quotes, is read
      folded to lower case. This holds whether or not the rows can be written afterwards. */
  lemma ExecuteCommand(m: Model, entityClass: ClrClass, entities: seq<Option<Record>>, mapping: TypeMapping,
                       entityType: EntityType)
    requires |entities| > 0
    requires FindEntityType(m, entityClass.name) == Some(entityType)
    requires exists p :: p in entityType.properties && !p.isPrimaryKey
    requires PlainSchema(entityType.schema)
    requires QuoteFree(entityType.tableName)
    requires forall p :: p in entityType.properties ==> QuoteFree(p.columnName)
    ensures |Execute(Some(m), entityClass, Some(entities), mapping).trace| > 0
    ensures Execute(Some(m), entityClass, Some(entities), mapping).trace[0].BeginBinaryImport?
    ensures Parse(Execute(Some(m), entityClass, Some(entities), mapping).trace[0].command)
            == Some(CopyTarget(FoldedSchema(entityType.schema), entityType.tableName,
                               KeyFreeColumnNames(entityType.properties)))
  {
    var props := entityType.properties;
    var cols := SelectColumns(props, mapping, entityClass.propertyNames);
    SelectColumnsEmpty(props, mapping, entityClass.propertyNames);
    SelectColumnsNames(props, mapping, entityClass.propertyNames);
    ColumnNamesQuoteFree(props, mapping, entityClass.propertyNames);
    BuildRoundTrip(entityType.schema, entityType.tableName, ColumnNames(cols));
  }

  /** The table-name insert names the table it was given, in the schema it was given
      (not the mapped schema, and folded to lower case as it is not quoted), with the
      non-key columns of the first entity type that has that table name. */
  lemma ExecuteForTableCommand(m: Model, tableName: string, entities: seq<Option<Record>>, schema: Option<string>,
                               mapping: TypeMapping, entityType: EntityType)
    requires |entities| > 0 && entities[0].Some?
    requires FindEntityTypeByTable(m, Some(tableName)) == Some(entityType)
    requires exists p :: p in entityType.properties && !p.isPrimaryKey
    requires PlainSchema(schema)
    requires QuoteFree(tableName)
    requires forall p :: p in entityType.properties ==> QuoteFree(p.columnName)
    ensures |ExecuteForTable(Some(m), Some(tableName), Some(entities), schema, mapping).trace| > 0
    ensures ExecuteForTable(Some(m), Some(tableName), Some(entities), schema, mapping).trace[0].BeginBinaryImport?
    ensures Parse(ExecuteForTable(Some(m), Some(tableName), Some(entities), schema, mapping).trace[0].command)
            == Some(CopyTarget(FoldedSchema(schema), tableName, KeyFreeColumnNames(entityType.properties)))
  {
    var props := entityType.properties;
    var accessors := entities[0].value.Keys;
    var cols := SelectColumns(props, mapping, accessors);
    assert FirstRecordType(entities) == Some(accessors);
    SelectColumnsEmpty(props, mapping, accessors);
    SelectColumnsNames(props, mapping, accessors);
    ColumnNamesQuoteFree(props, mapping, accessors);
    BuildRoundTrip(schema, tableName, ColumnNames(cols));
  }

  /** Once the class is mapped, the class-based insert succeeds exactly when the entity
      type has a non-key column and every non-null record can be written in full. */
  lemma ExecuteSucceeds(m: Model, entityClass: ClrClass, entities: seq<Option<Record>>, mapping: TypeMapping,
                        entityType: EntityType)
    requires |entities| > 0
    requires FindEntityType(m, entityClass.name) == Some(entityType)
    ensures Execute(Some(m), entityClass, Some(entities), mapping).result.Ok?
            <==> && (exists p :: p in entityType.properties && !p.isPrimaryKey)
                 && forall r :: r in NonNull(entities) ==>
                      RowOk(SelectColumns(entityType.properties, mapping, entityClass.propertyNames), Direct, r)
  {
    SelectColumnsEmpty(entityType.properties, mapping, entityClass.propertyNames);
  }

  /** With escaping, the command names the mapped schema, the mapped table and its non-key
      columns whatever quotes or capitals they contain. */
  lemma ExecuteFixedCommand(m: Model, entityClass: ClrClass, entities: seq<Option<Record>>, mapping: TypeMapping,
                            entityType: EntityType)
    requires |entities| > 0
    requires FindEntityType(m, entityClass.name) == Some(entityType)
    requires exists p :: p in entityType.properties && !p.isPrimaryKey
    ensures |ExecuteFixed(Some(m), entityClass, Some(entities), mapping).trace| > 0
    ensures ExecuteFixed(Some(m), entityClass, Some(entities), mapping).trace[0].BeginBinaryImport?
    ensures Parse(ExecuteFixed(Some(m), entityClass, Some(entities), mapping).trace[0].command)
            == Some(CopyTarget(EffectiveSchema(entityType.schema), entityType.tableName,
                               KeyFreeColumnNames(entityType.properties)))
  {
    var props := entityType.properties;
    var cols := SelectColumns(props, mapping, entityClass.propertyNames);
    SelectColumnsEmpty(props, mapping, entityClass.propertyNames);
    SelectColumnsNames(props, mapping, entityClass.propertyNames);
    BuildEscapedRoundTrip(entityType.schema, entityType.tableName, ColumnNames(cols));
  }

  /** A successful class-based insert writes one row per non-null record. */
  lemma ExecuteRowCount(m: Model, entityClass: ClrClass, entities: seq<Option<Record>>, mapping: TypeMapping)
    requires Execute(Some(m), entityClass, Some(entities), mapping).result.Ok?
    ensures multiset(Execute(Some(m), entityClass, Some(entities), mapping).trace)[StartRow] == |NonNull(entities)|
  {
    if |entities| > 0 {
      var entityType := FindEntityType(m, entityClass.name).value;
      var cols := SelectColumns(entityType.properties, mapping, entityClass.propertyNames);
      ImportRowCount(Unescaped, entityType.schema, entityType.tableName, cols, Direct, entities);
    }
  }

  /** A null record anywhere in the batch is skipped: the importer sees the same calls,
      and only the returned count grows by one. */
  lemma ExecuteSkipsNullRecord(m: Model, entityClass: ClrClass, a: seq<Option<Record>>, b: seq<Option<Record>>,
                               mapping: TypeMapping)
    requires |a + b| > 0
    ensures Execute(Some(m), entityClass, Some(a + [None] + b), mapping).trace
            == Execute(Some(m), entityClass, Some(a + b), mapping).trace
    ensures Execute(Some(m), entityClass, Some(a + [None] + b), mapping).result
            == match Execute(Some(m), entityClass, Some(a + b), mapping).result
               case Ok(n) => Ok(n + 1)
               case Err(e) => Err(e)
  {
    assert |a + [None] + b| == |a + b| + 1;
    match FindEntityType(m, entityClass.name)
    case None =>
    case Some(entityType) =>
      var cols := SelectColumns(entityType.properties, mapping, entityClass.propertyNames);
      ImportNullRecord(Unescaped, entityType.schema, entityType.tableName, cols, Direct, a, b);
      assert Execute(Some(m), entityClass, Some(a + b), mapping)
             == Import(Unescaped, entityType.schema, entityType.tableName, cols, Direct, a + b);
      assert Execute(Some(m), entityClass, Some(a + [None] + b), mapping)
             == Import(Unescaped, entityType.schema, entityType.tableName, cols, Direct, a + [None] + b);
  }

  /** The table-name insert skips a null record too, but only behind a non-null first
      record: the first record decides which type the accessors are bound to. */
  lemma ExecuteForTableSkipsLaterNullRecord(m: Model, tableName: Option<string>, a: seq<Option<Record>>,
                                            b: seq<Option<Record>>, schema: Option<string>, mapping: TypeMapping)
    requires |a| > 0
    ensures ExecuteForTable(Some(m), tableName, Some(a + [None] + b), schema, mapping).trace
            == ExecuteForTable(Some(m), tableName, Some(a + b), schema, mapping).trace
    ensures ExecuteForTable(Some(m), tableName, Some(a + [None] + b), schema, mapping).result
            == match ExecuteForTable(Some(m), tableName, Some(a + b), schema, mapping).result
               case Ok(n) => Ok(n + 1)
               case Err(e) => Err(e)
  {
    assert (a + [None] + b)[0] == a[0] == (a + b)[0];
    var classType := FirstRecordType(a + b);
    assert FirstRecordType(a + [None] + b) == classType;
    match FindEntityTypeByTable(m, tableName)
    case None =>
    case Some(entityType) =>
      var cols := BoundColumns(entityType, mapping, classType);
      if classType.Some? || |BoundColumns(entityType, mapping, None)| == 0 {
        ExecuteForTableImports(m, tableName, a + b, schema, mapping, entityType);
        ExecuteForTableImports(m, tableName, a + [None] + b, schema, mapping, entityType);
        ImportNullRecord(Unescaped, schema, tableName.value, cols, NullConditional, a, b);
      }
  }

  /** A batch whose first record is null fails on the table-name insert before anything is
      written, as soon as the table has a non-key column: the run-time type of `null` is
      asked for. */
  lemma LeadingNullRecordFails(m: Model, tableName: string, entities: seq<Option<Record>>, schema: Option<string>,
                               mapping: TypeMapping, entityType: EntityType)
    requires FindEntityTypeByTable(m, Some(tableName)) == Some(entityType)
    requires exists p :: p in entityType.properties && !p.isPrimaryKey
    ensures ExecuteForTable(Some(m), Some(tableName), Some([None] + entities), schema, mapping)
            == Outcome([], Err(ArgumentNull("type")))
  {
    SelectColumnsEmpty(entityType.properties, mapping, {});
  }

  /** The corrected table-name insert skips a null record wherever it stands, the first
      place included. */
  lemma ExecuteForTableFixedSkipsNullRecord(q: Quoting, m: Model, tableName: Option<string>, a: seq<Option<Record>>,
                                            b: seq<Option<Record>>, schema: Option<string>, mapping: TypeMapping)
    requires |a + b| > 0
    ensures ExecuteForTableFixed(q, Some(m), tableName, Some(a + [None] + b), schema, mapping).trace
            == ExecuteForTableFixed(q, Some(m), tableName, Some(a + b), schema, mapping).trace
    ensures ExecuteForTableFixed(q, Some(m), tableName, Some(a + [None] + b), schema, mapping).result
            == match ExecuteForTableFixed(q, Some(m), tableName, Some(a + b), schema, mapping).result
               case Ok(n) => Ok(n + 1)
               case Err(e) => Err(e)
  {
    NonNullSkipsNull(a, b);
    var classType := FirstNonNullType(a + b);
    assert FirstNonNullType(a + [None] + b) == classType;
    match FindEntityTypeByTable(m, tableName)
    case None =>
    case Some(entityType) =>
      var cols := BoundColumns(entityType, mapping, classType);
      ExecuteForTableFixedImports(q, m, tableName, a + b, schema, mapping, entityType);
      ExecuteForTableFixedImports(q, m, tableName, a + [None] + b, schema, mapping, entityType);
      ImportNullRecord(q, schema, tableName.value, cols, NullConditional, a, b);
  }

  /** On the class-based insert, a non-key property the class does not declare makes the
      first non-null record fail, so the import is never completed. */
  lemma MissingAccessorFails(m: Model, entityClass: ClrClass, entities: seq<Option<Record>>, mapping: TypeMapping,
                             entityType: EntityType, p: Property, r: Record)
    requires FindEntityType(m, entityClass.name) == Some(entityType)
    requires p in entityType.properties && !p.isPrimaryKey && p.name !in entityClass.propertyNames
    requires Some(r) in entities
    ensures Execute(Some(m), entityClass, Some(entities), mapping).result.Err?
    ensures Complete !in Execute(Some(m), entityClass, Some(entities), mapping).trace
  {
    var cols := SelectColumns(entityType.properties, mapping, entityClass.propertyNames);
    var c := Describe(p, mapping, entityClass.propertyNames);
    assert c in cols;
    var i :| 0 <= i < |cols| && cols[i] == c;
    assert FieldEvent(cols[i], Direct, r).Err?;
    RowOkIff(cols, Direct, r);
  }

  /** On the class-based insert, records that are instances of the class never meet an
      accessor of another type: the insert does not fail with `TargetMismatch`. */
  lemma ExecuteOfClassNoMismatch(context: Option<Model>, entityClass: ClrClass, entities: seq<Option<Record>>,
                                 mapping: TypeMapping)
    requires OfClass(entityClass.propertyNames, entities)
    ensures Execute(context, entityClass, Some(entities), mapping).result != Err(TargetMismatch)
  {
    if context.Some? && |entities| > 0 {
      match FindEntityType(context.value, entityClass.name)
      case None =>
      case Some(entityType) =>
        var cols := SelectColumns(entityType.properties, mapping, entityClass.propertyNames);
        forall c, r | c in cols && c.bound && Some(r) in entities
          ensures c.propertyName in r
        {
          var p :| p in entityType.properties && !p.isPrimaryKey && c == Describe(p, mapping, entityClass.propertyNames);
          var i :| 0 <= i < |entities| && entities[i] == Some(r);
        }
        EncodeRowsNoMismatch(cols, Direct, entities);
    }
  }

  /** On the table-name insert, a later record that lacks a property of the first record's
      type, for a non-key column, makes the import fail: the accessor does not belong to it. */
  lemma MismatchedRecordFails(m: Model, tableName: string, entities: seq<Option<Record>>, schema: Option<string>,
                              mapping: TypeMapping, entityType: EntityType, p: Property, r: Record)
    requires |entities| > 0 && entities[0].Some?
    requires FindEntityTypeByTable(m, Some(tableName)) == Some(entityType)
    requires p in entityType.properties && !p.isPrimaryKey && p.name in entities[0].value
    requires Some(r) in entities && p.name !in r
    ensures ExecuteForTable(Some(m), Some(tableName), Some(entities), schema, mapping).result.Err?
    ensures Complete !in ExecuteForTable(Some(m), Some(tableName), Some(entities), schema, mapping).trace
  {
    var accessors := entities[0].value.Keys;
    var cols := SelectColumns(entityType.properties, mapping, accessors);
    var c := Describe(p, mapping, accessors);
    assert c in cols;
    var i :| 0 <= i < |cols| && cols[i] == c;
    assert FieldEvent(cols[i], NullConditional, r).Err?;
    RowOkIff(cols, NullConditional, r);
  }

  /** On the table-name insert, a non-key column whose property the first record's type
      lacks is written as null in every row. `cols` names the insert's column list. */
  lemma UnboundColumnWritesNull(m: Model, tableName: string, entities: seq<Option<Record>>, schema: Option<string>,
                                mapping: TypeMapping, entityType: EntityType, cols: seq<Column>, k: nat, i: nat)
    requires |entities| > 0 && entities[0].Some?
    requires FindEntityTypeByTable(m, Some(tableName)) == Some(entityType)
    requires cols == SelectColumns(entityType.properties, mapping, entities[0].value.Keys)
    requires ExecuteForTable(Some(m), Some(tableName), Some(entities), schema, mapping).result.Ok?
    requires k < |NonNull(entities)| && i < |cols| && cols[i].propertyName !in entities[0].value
    ensures 1 + RowStart(k, |cols| + 1) + 1 + i < |ExecuteForTable(Some(m), Some(tableName), Some(entities), schema, mapping).trace|
    ensures ExecuteForTable(Some(m), Some(tableName), Some(entities), schema, mapping).trace[1 + RowStart(k, |cols| + 1) + 1 + i]
            == WriteNull
  {
    var accessors := entities[0].value.Keys;
    assert FirstRecordType(entities) == Some(accessors);
    assert BoundColumns(entityType, mapping, Some(accessors)) == cols;
    ExecuteForTableImports(m, Some(tableName), entities, schema, mapping, entityType);
    SelectColumnsBound(entityType.properties, mapping, accessors, i);
    ImportUnboundNull(Unescaped, schema, tableName, cols, entities, k, i);
  }

  /** Unless the record type is needed and unknown, the by-table insert is the shared
      encoder over the columns bound to the first record's type. */
  lemma ExecuteForTableImports(m: Model, tableName: Option<string>, entities: seq<Option<Record>>,
                               schema: Option<string>, mapping: TypeMapping, entityType: EntityType)
    requires |entities| > 0
    requires FindEntityTypeByTable(m, tableName) == Some(entityType)
    requires FirstRecordType(entities).Some? || |BoundColumns(entityType, mapping, None)| == 0
    ensures tableName.Some?
    ensures ExecuteForTable(Some(m), tableName, Some(entities), schema, mapping)
            == Import(Unescaped, schema, tableName.value, BoundColumns(entityType, mapping, FirstRecordType(entities)),
                      NullConditional, entities)
  {
  }

  /** Once the table is found, the corrected by-table insert is the shared encoder over the
      columns bound to the first non-null record's type. */
  lemma ExecuteForTableFixedImports(q: Quoting, m: Model, tableName: Option<string>, entities: seq<Option<Record>>,
                                    schema: Option<string>, mapping: TypeMapping, entityType: EntityType)
    requires |entities| > 0
    requires FindEntityTypeByTable(m, tableName) == Some(entityType)
    ensures tableName.Some?
    ensures ExecuteForTableFixed(q, Some(m), tableName, Some(entities), schema, mapping)
            == Import(q, schema, tableName.value, BoundColumns(entityType, mapping, FirstNonNullType(entities)),
                      NullConditional, entities)
  {
  }

  /** In null-conditional mode an unbound column is written as null in every row. */
  lemma ImportUnboundNull(q: Quoting, schema: Option<string>, table: string, cols: seq<Column>,
                          entities: seq<Option<Record>>, k: nat, i: nat)
    requires |entities| > 0
    requires Import(q, schema, table, cols, NullConditional, entities).result.Ok?
    requires k < |NonNull(entities)| && i < |cols| && !cols[i].bound
    ensures 1 + RowStart(k, |cols| + 1) + 1 + i < |Import(q, schema, table, cols, NullConditional, entities).trace|
    ensures Import(q, schema, table, cols, NullConditional, entities).trace[1 + RowStart(k, |cols| + 1) + 1 + i]
            == WriteNull
  {
    ImportLayout(q, schema, table, cols, NullConditional, entities, k, i);
    assert FieldEvent(cols[i], NullConditional, NonNull(entities)[k]) == Ok(WriteNull);
  }
}

=== FILE: columns.dfy ===
/** The column list of a bulk insert: the entity's mapped properties without the
    primary key, each described once with its accessor and wire tag. */
module Columns {
  import opened Wrappers
  import opened Metadata

  /** The descriptor built once per call for one non-key property. `bound` tells whether
      the class the records are read through declares the property (whether an accessor
      was found); `wireType` is the tag the type mapping gives the property's CLR type. */
  datatype Column = Column(
    propertyName: string,
    columnName: string,
    bound: bool,
    wireType: Option<WireType>,
    columnType: Option<string>,
    isNullable: bool)

  /** The descriptor of property `p` when records are read through a class declaring `accessors`. */
  function Describe(p: Property, mapping: TypeMapping, accessors: set<string>): (c: Column)
    ensures c.propertyName == p.name && c.columnName == p.columnName && c.columnType == p.columnType
    ensures c.bound <==> p.name in accessors
    ensures c.wireType == mapping(p.clrType)
  {
    Column(p.name, p.columnName, p.name in accessors, mapping(p.clrType), p.columnType, p.isNullable)
  }

  /** The descriptors of the non-key properties, in model order. */
  function SelectColumns(props: seq<Property>, mapping: TypeMapping, accessors: set<string>): (cols: seq<Column>)
    ensures |cols| <= |props|
    ensures forall c :: c in cols ==>
              exists p :: p in props && !p.isPrimaryKey && c == Describe(p, mapping, accessors)
    ensures forall p :: p in props && !p.isPrimaryKey ==> Describe(p, mapping, accessors) in cols
  {
    if |props| == 0 then []
    else
      var rest := SelectColumns(props[1..], mapping, accessors);
      assert forall p :: p in props[1..] ==> p in props;
      if props[0].isPrimaryKey then rest else [Describe(props[0], mapping, accessors)] + rest
  }

  /** The physical column names, in column order. */
  function ColumnNames(cols: seq<Column>): (names: seq<string>)
    ensures |names| == |cols|
    ensures forall i :: 0 <= i < |cols| ==> names[i] == cols[i].columnName
  {
    seq(|cols|, i requires 0 <= i < |cols| => cols[i].columnName)
  }

  /** Selection keeps relative order: selecting from a concatenation concatenates the selections.
      With the one-property cases below, this determines the column list completely. */
  lemma {:induction false} SelectColumnsAppend(a: seq<Property>, b: seq<Property>, mapping: TypeMapping, accessors: set<string>)
    ensures SelectColumns(a + b, mapping, accessors)
            == SelectColumns(a, mapping, accessors) + SelectColumns(b, mapping, accessors)
    decreases |a|
  {
    if |a| == 0 {
      assert a + b == b;
    } else {
      assert (a + b)[0] == a[0];
      assert (a + b)[1..] == a[1..] + b;
      SelectColumnsAppend(a[1..], b, mapping, accessors);
    }
  }

  /** A key property contributes no column; any other property contributes exactly its descriptor. */
  lemma SelectColumnsSingle(p: Property, mapping: TypeMapping, accessors: set<string>)
    ensures SelectColumns([p], mapping, accessors)
            == if p.isPrimaryKey then [] else [Describe(p, mapping, accessors)]
  {
    assert [p][1..] == [];
  }

  /** The column list is empty exactly when every mapped property is part of the primary key. */
  lemma {:induction false} SelectColumnsEmpty(props: seq<Property>, mapping: TypeMapping, accessors: set<string>)
    ensures |SelectColumns(props, mapping, accessors)| == 0 <==> forall p :: p in props ==> p.isPrimaryKey
  {
    var cols := SelectColumns(props, mapping, accessors);
    if |cols| > 0 {
      assert cols[0] in cols;
    }
  }

  /** A selected column has an accessor exactly when the bound type declares its property. */
  lemma SelectColumnsBound(props: seq<Property>, mapping: TypeMapping, accessors: set<string>, i: nat)
    requires i < |SelectColumns(props, mapping, accessors)|
    ensures SelectColumns(props, mapping, accessors)[i].bound
            <==> SelectColumns(props, mapping, accessors)[i].propertyName in accessors
  {
    assert SelectColumns(props, mapping, accessors)[i] in SelectColumns(props, mapping, accessors);
  }

  /** The physical names of the non-key columns, in model order: the reference the
      column list is checked against. */
  function KeyFreeColumnNames(props: seq<Property>): seq<string>
  {
    if |props| == 0 then []
    else (if props[0].isPrimaryKey then [] else [props[0].columnName]) + KeyFreeColumnNames(props[1..])
  }

  /** The column list names exactly the non-key columns, in model order, whatever class
      the accessors are bound to. */
  lemma {:induction false} SelectColumnsNames(props: seq<Property>, mapping: TypeMapping, accessors: set<string>)
    ensures ColumnNames(SelectColumns(props, mapping, accessors)) == KeyFreeColumnNames(props)
    decreases |props|
  {
    if |props| > 0 {
      SelectColumnsNames(props[1..], mapping, accessors);
      var rest := SelectColumns(props[1..], mapping, accessors);
      if !props[0].isPrimaryKey {
        ColumnNamesCons(Describe(props[0], mapping, accessors), rest);
      }
    }
  }

  lemma ColumnNamesCons(c: Column, cols: seq<Column>)
    ensures ColumnNames([c] + cols) == [c.columnName] + ColumnNames(cols)
  {
  }
}

=== FILE: copycommand.dfy ===
/** The text of the `COPY ... FROM STDIN BINARY` statement that opens the binary import,
    and a reader for that text that serves as its inverse.

    The command is `COPY ` + an optional `schema.` + the quoted table name + ` (` + the
    quoted column names separated by `, ` + `) FROM STDIN BINARY;`. The reader follows
    PostgreSQL's quoting and case rules for identifiers (section 4.1.1 of the PostgreSQL
    manual, "Identifiers and Key Words"): in a quoted identifier a doubled quote stands for
    one quote character and case is kept; an unquoted identifier is folded to lower case.
    The other rules of that section are not applied: a name longer than 63 bytes is not
    cut short, and an empty quoted name or one holding the character with code zero is not
    rejected. */
module CopyCommand {
  import opened Wrappers
  import opened Metadata
  import opened Errors
  import opened Seqs

  const Head: string := "COPY "
  const Tail: string := ") FROM STDIN BINARY;"

  /** `schema.` when a schema is given and is not blank, else nothing. The schema is not quoted. */
  function SchemaPrefix(schema: Option<string>): (r: string)
    ensures |r| == 0 <==> IsNullOrWhiteSpace(schema)
    ensures |r| > 0 ==> r == schema.value + "."
  {
    if IsNullOrWhiteSpace(schema) then "" else schema.value + "."
  }

  /** An identifier between double quotes, exactly as the insert writes it: quote
      characters inside the identifier are not doubled. */
  function Quote(id: string): string
  {
    "\"" + id + "\""
  }

  function QuoteAll(ids: seq<string>): (r: seq<string>)
    ensures |r| == |ids|
  {
    seq(|ids|, i requires 0 <= i < |ids| => Quote(ids[i]))
  }

  /** The parts separated by `, `, folded from the left as `Aggregate` does. */
  function Join(parts: seq<string>): string
    requires |parts| > 0
    decreases |parts|
  {
    if |parts| == 1 then parts[0] else Join(parts[..|parts| - 1]) + ", " + parts[|parts| - 1]
  }

  /** ` (` + the already quoted columns + `) FROM STDIN BINARY;`. */
  function ColumnClause(quotedColumns: seq<string>): string
    requires |quotedColumns| > 0
  {
    " (" + Join(quotedColumns) + Tail
  }

  /** The command text around a schema prefix, an already quoted table name and column list. */
  function Render(prefix: string, quotedTable: string, quotedColumns: seq<string>): string
    requires |quotedColumns| > 0
  {
    Head + (prefix + (quotedTable + ColumnClause(quotedColumns)))
  }

  /** The command the insert builds. With no columns the join has nothing to fold and
      throws, so no command exists. */
  function Build(schema: Option<string>, table: string, columns: seq<string>): (r: Result<string, Error>)
    ensures r.Err? <==> |columns| == 0
    ensures r.Err? ==> r.error == NoColumns
  {
    if |columns| == 0 then Err(NoColumns) else Ok(Render(SchemaPrefix(schema), Quote(table), QuoteAll(columns)))
  }

  // ---------------------------------------------------------------------------
  // Quoting with embedded quotes doubled (the corrected form).

  /** Every quote character doubled. */
  function Escape(id: string): (r: string)
    ensures |r| >= |id|
  {
    if |id| == 0 then []
    else (if id[0] == '"' then "\"\"" else [id[0]]) + Escape(id[1..])
  }

  function QuoteEscaped(id: string): string
  {
    "\"" + (Escape(id) + "\"")
  }

  function QuoteAllEscaped(ids: seq<string>): (r: seq<string>)
    ensures |r| == |ids|
  {
    seq(|ids|, i requires 0 <= i < |ids| => QuoteEscaped(ids[i]))
  }

  /** `"schema".` with the schema quoted and escaped like the table, when it is not blank. */
  function SchemaPrefixEscaped(schema: Option<string>): string
  {
    if IsNullOrWhiteSpace(schema) then "" else QuoteEscaped(schema.value) + "."
  }

  /** The command with schema, table and column names quoted as PostgreSQL requires. */
  function BuildEscaped(schema: Option<string>, table: string, columns: seq<string>): (r: Result<string, Error>)
    ensures r.Err? <==> |columns| == 0
    ensures r.Err? ==> r.error == NoColumns
  {
    if |columns| == 0 then Err(NoColumns)
    else Ok(Render(SchemaPrefixEscaped(schema), QuoteEscaped(table), QuoteAllEscaped(columns)))
  }

  // ---------------------------------------------------------------------------
  // Reading a command back.

  /** What a command names: the schema qualifier, the table and the columns in order. */
  datatype CopyTarget = CopyTarget(schema: Option<string>, table: string, columns: seq<string>)

  /** Reads the body of a quoted identifier (the text after its opening quote) up to the
      closing quote; a doubled quote stands for one quote. Yields the identifier and the
      text after the closing quote. */
  function ReadIdent(s: string): (r: Option<(string, string)>)
    ensures r.Some? ==> |r.value.1| < |s|
    decreases |s|
  {
    if |s| == 0 then None
    else if s[0] == '"' then
      if |s| >= 2 && s[1] == '"' then
        match ReadIdent(s[2..])
        case None => None
        case Some((id, rest)) => Some(("\"" + id, rest))
      else Some(([], s[1..]))
    else
      match ReadIdent(s[1..])
      case None => None
      case Some((id, rest)) => Some(([s[0]] + id, rest))
  }

  /** Reads a non-empty list of quoted identifiers separated by `, `; yields the identifiers
      and the text after the last one. */
  function ReadColumns(s: string): (r: Option<(seq<string>, string)>)
    ensures r.Some? ==> |r.value.1| < |s|
    decreases |s|
  {
    if |s| == 0 || s[0] != '"' then None
    else
      match ReadIdent(s[1..])
      case None => None
      case Some((id, rest)) =>
        if |rest| >= 2 && rest[..2] == ", " then
          match ReadColumns(rest[2..])
          case None => None
          case Some((ids, tail)) => Some(([id] + ids, tail))
        else Some(([id], rest))
  }

  /** The characters an unquoted identifier may continue with: letters, digits, `_` and `$`
      (ASCII only). */
  predicate IdentChar(c: char)
  {
    ('a' <= c <= 'z') || ('A' <= c <= 'Z') || ('0' <= c <= '9') || c == '_' || c == '$'
  }

  /** A name PostgreSQL reads as one identifier without quotes: a letter or `_`, then
      letters, digits, `_` or `$`. */
  predicate UnquotedIdent(s: string)
  {
    && |s| > 0
    && (('a' <= s[0] <= 'z') || ('A' <= s[0] <= 'Z') || s[0] == '_')
    && forall i :: 0 <= i < |s| ==> IdentChar(s[i])
  }

  function LowerChar(c: char): char
  {
    if 'A' <= c <= 'Z' then (c as int + 32) as char else c
  }

  /** An unquoted identifier as PostgreSQL stores it: ASCII letters folded to lower case. */
  function Fold(s: string): (r: string)
    ensures |r| == |s|
    ensures forall i :: 0 <= i < |s| ==> r[i] == LowerChar(s[i])
  {
    seq(|s|, i requires 0 <= i < |s| => LowerChar(s[i]))
  }

  /** The target a `COPY ... FROM STDIN BINARY;` command names, if it is one. */
  function Parse(cmd: string): Option<CopyTarget>
  {
    if |Head| <= |cmd| && cmd[..|Head|] == Head then ParseTarget(cmd[|Head|..]) else None
  }

  /** The target after `COPY `: a quoted name, which is the table or a quoted schema
      followed by `.` and the table; or an unquoted schema name, its `.` and the quoted
      table. An unquoted schema is folded to lower case; anything before the table that
      is not one unquoted identifier and a dot is not read. */
  function ParseTarget(body: string): Option<CopyTarget>
  {
    if |body| > 0 && body[0] == '"' then ParseQuotedTarget(body[1..])
    else
      match FirstIndex(body, (c: char) => c == '"')
      case None => None
      case Some(q) =>
        var prefix := body[..q];
        if |prefix| > 0 && prefix[|prefix| - 1] == '.' && UnquotedIdent(prefix[..|prefix| - 1]) then
          ParseTable(Some(Fold(prefix[..|prefix| - 1])), body[q + 1..])
        else None
  }

  /** After an opening quote: either `schema"."table" (...` or `table" (...`. */
  function ParseQuotedTarget(s: string): Option<CopyTarget>
  {
    match ReadIdent(s)
    case None => None
    case Some((first, rest)) =>
      if |rest| >= 2 && rest[0] == '.' && rest[1] == '"' then ParseTable(Some(first), rest[2..])
      else
        match ParseColumnClause(rest)
        case None => None
        case Some(columns) => Some(CopyTarget(None, first, columns))
  }

  /** The body of the quoted table name, then the column clause. */
  function ParseTable(schema: Option<string>, s: string): Option<CopyTarget>
  {
    match ReadIdent(s)
    case None => None
    case Some((table, rest)) =>
      match ParseColumnClause(rest)
      case None => None
      case Some(columns) => Some(CopyTarget(schema, table, columns))
  }

  /** The columns of ` ("c1", ...) FROM STDIN BINARY;`. */
  function ParseColumnClause(s: string): Option<seq<string>>
  {
    if !(|s| >= 2 && s[..2] == " (") then None
    else
      match ReadColumns(s[2..])
      case None => None
      case Some((columns, tail)) => if tail == Tail then Some(columns) else None
  }

  /** The schema a command names when it is quoted: none when the given schema is null or blank. */
  function EffectiveSchema(schema: Option<string>): Option<string>
  {
    if IsNullOrWhiteSpace(schema) then None else schema
  }

  /** The schema PostgreSQL reads from the unquoted prefix: the given one folded to lower case. */
  function FoldedSchema(schema: Option<string>): Option<string>
  {
    if IsNullOrWhiteSpace(schema) then None else Some(Fold(schema.value))
  }

  /** A schema the insert can write unquoted and have read as one name: null, blank, or an
      unquoted identifier. */
  predicate PlainSchema(schema: Option<string>)
  {
    !IsNullOrWhiteSpace(schema) ==> UnquotedIdent(schema.value)
  }

  predicate QuoteFree(s: string)
  {
    '"' !in s
  }

  // ---------------------------------------------------------------------------
  // Lemmas.

  /** Reading an escaped identifier followed by its closing quote gives back the identifier,
      provided the text after it does not start with another quote. */
  lemma {:induction false} ReadEscaped(id: string, rest: string)
    requires |rest| == 0 || rest[0] != '"'
    ensures ReadIdent(Escape(id) + "\"" + rest) == Some((id, rest))
    decreases |id|
  {
    var s := Escape(id) + "\"" + rest;
    if |id| == 0 {
      assert s == "\"" + rest;
      assert s[1..] == rest;
    } else {
      ReadEscaped(id[1..], rest);
      var t := Escape(id[1..]) + "\"" + rest;
      if id[0] == '"' {
        assert s == "\"\"" + t;
        assert s[2..] == t;
        assert "\"" + id[1..] == id;
      } else {
        assert s == [id[0]] + t;
        assert s[1..] == t;
        assert [id[0]] + id[1..] == id;
      }
    }
  }

  /** A quote-free identifier needs no escaping. */
  lemma {:induction false} EscapeQuoteFree(id: string)
    requires QuoteFree(id)
    ensures Escape(id) == id
    decreases |id|
  {
    if |id| > 0 {
      assert id[0] != '"';
      assert forall c :: c in id[1..] ==> c in id;
      EscapeQuoteFree(id[1..]);
      assert [id[0]] + id[1..] == id;
    }
  }

  /** The left fold splits at its first element. */
  lemma {:induction false} JoinCons(parts: seq<string>)
    requires |parts| >= 2
    ensures Join(parts) == parts[0] + ", " + Join(parts[1..])
    decreases |parts|
  {
    var n := |parts|;
    if n > 2 {
      JoinCons(parts[..n - 1]);
      assert parts[..n - 1][0] == parts[0];
      assert parts[..n - 1][1..] == parts[1..][..n - 2];
      assert parts[1..][n - 2] == parts[n - 1];
    } else {
      assert parts[1..] == [parts[1]];
    }
  }

  /** Reading an escaped column list gives back the names, provided what follows the list
      starts with neither a quote nor a comma. */
  lemma {:induction false} ReadColumnsEscaped(names: seq<string>, tail: string)
    requires |names| > 0
    requires |tail| > 0 && tail[0] != '"' && tail[0] != ','
    ensures ReadColumns(Join(QuoteAllEscaped(names)) + tail) == Some((names, tail))
    decreases |names|
  {
    if |names| == 1 {
      ReadLastColumn(names, tail);
    } else {
      ReadColumnsEscaped(names[1..], tail);
      ReadNextColumn(names, tail);
    }
  }

  /** The last column of the list: the reader stops at the text after it. */
  lemma ReadLastColumn(names: seq<string>, tail: string)
    requires |names| == 1
    requires |tail| > 0 && tail[0] != '"' && tail[0] != ','
    ensures ReadColumns(Join(QuoteAllEscaped(names)) + tail) == Some((names, tail))
  {
    var parts := QuoteAllEscaped(names);
    var s := Join(parts) + tail;
    assert Join(parts) == parts[0] == QuoteEscaped(names[0]);
    assert s == "\"" + (Escape(names[0]) + "\"" + tail);
    ReadEscaped(names[0], tail);
    assert s[1..] == Escape(names[0]) + "\"" + tail;
    assert !(|tail| >= 2 && tail[..2] == ", ");
    assert s[0] == '"';
    assert [names[0]] == names;
  }

  /** A column followed by `, ` and more columns: the reader takes it and goes on. */
  lemma ReadNextColumn(names: seq<string>, tail: string)
    requires |names| >= 2
    requires ReadColumns(Join(QuoteAllEscaped(names[1..])) + tail) == Some((names[1..], tail))
    ensures ReadColumns(Join(QuoteAllEscaped(names)) + tail) == Some((names, tail))
  {
    var parts := QuoteAllEscaped(names);
    var s := Join(parts) + tail;
    JoinCons(parts);
    assert parts[1..] == QuoteAllEscaped(names[1..]);
    var e, j := Escape(names[0]), Join(QuoteAllEscaped(names[1..]));
    var more := j + tail;
    var rest := ", " + more;
    var x := e + "\"";
    // regroup `"e" + ", " + j + tail` around the opening quote
    ConcatAssoc(parts[0], ", ", j);
    ConcatAssoc(parts[0], ", " + j, tail);
    ConcatAssoc(", ", j, tail);
    ConcatAssoc("\"", x, rest);
    assert s == "\"" + (e + "\"" + rest);
    ReadEscaped(names[0], rest);
    assert s[1..] == e + "\"" + rest;
    assert rest[..2] == ", ";
    assert rest[2..] == more;
    assert [names[0]] + names[1..] == names;
  }

  /** The first quote of `prefix + "\"" + rest` is right after a quote-free prefix. */
  lemma FirstQuote(prefix: string, rest: string)
    requires QuoteFree(prefix)
    ensures FirstIndex(prefix + "\"" + rest, (c: char) => c == '"') == Some(|prefix|)
  {
    var s := prefix + "\"" + rest;
    assert s[|prefix|] == '"';
    assert forall i :: 0 <= i < |prefix| ==> s[i] == prefix[i] && prefix[i] in prefix;
  }

  /** The column clause reads back as the escaped column names. */
  lemma ColumnClauseRoundTrip(columns: seq<string>)
    requires |columns| > 0
    ensures ParseColumnClause(ColumnClause(QuoteAllEscaped(columns))) == Some(columns)
  {
    var j := Join(QuoteAllEscaped(columns));
    var s := " (" + j + Tail;
    assert s[..2] == " (";
    assert s[2..] == j + Tail;
    ReadColumnsEscaped(columns, Tail);
  }

  /** The rest of a quoted table name and the column clause read back as table and columns. */
  lemma TableRoundTrip(schema: Option<string>, table: string, columns: seq<string>)
    requires |columns| > 0
    ensures ParseTable(schema, Escape(table) + "\"" + ColumnClause(QuoteAllEscaped(columns)))
            == Some(CopyTarget(schema, table, columns))
  {
    var c := ColumnClause(QuoteAllEscaped(columns));
    assert c[0] == ' ';
    ReadEscaped(table, c);
    ColumnClauseRoundTrip(columns);
  }

  /** Without a schema, the text after `COPY ` is the quoted table and the column clause. */
  lemma TargetRoundTripNoSchema(table: string, columns: seq<string>)
    requires |columns| > 0
    ensures ParseTarget(QuoteEscaped(table) + ColumnClause(QuoteAllEscaped(columns)))
            == Some(CopyTarget(None, table, columns))
  {
    var c := ColumnClause(QuoteAllEscaped(columns));
    var x := Escape(table) + "\"";
    var body := QuoteEscaped(table) + c;
    ConcatAssoc("\"", x, c);
    assert body[1..] == x + c;
    assert c[0] == ' ';
    ReadEscaped(table, c);
    ColumnClauseRoundTrip(columns);
  }

  /** A quoted schema, a dot, then the quoted table and the column clause. */
  lemma TargetRoundTripQuoted(schema: string, table: string, columns: seq<string>)
    requires |columns| > 0
    ensures ParseTarget(QuoteEscaped(schema) + "." + (QuoteEscaped(table) + ColumnClause(QuoteAllEscaped(columns))))
            == Some(CopyTarget(Some(schema), table, columns))
  {
    var c := ColumnClause(QuoteAllEscaped(columns));
    var r := QuoteEscaped(table) + c;
    var x := Escape(schema) + "\"";
    var body := QuoteEscaped(schema) + "." + r;
    ConcatAssoc(QuoteEscaped(schema), ".", r);
    ConcatAssoc("\"", x, "." + r);
    assert body[1..] == x + ("." + r);
    ReadEscaped(schema, "." + r);
    var rest := "." + r;
    ConcatAssoc("\"", Escape(table) + "\"", c);
    assert rest[1] == '"';
    assert rest[2..] == Escape(table) + "\"" + c;
    TableRoundTrip(Some(schema), table, columns);
  }

  /** An unquoted schema, a dot, then the quoted table and the column clause: the schema
      is read folded to lower case. */
  lemma TargetRoundTripUnquoted(schema: string, table: string, columns: seq<string>)
    requires |columns| > 0
    requires UnquotedIdent(schema)
    ensures ParseTarget(schema + "." + (QuoteEscaped(table) + ColumnClause(QuoteAllEscaped(columns))))
            == Some(CopyTarget(Some(Fold(schema)), table, columns))
  {
    var c := ColumnClause(QuoteAllEscaped(columns));
    var rest := Escape(table) + "\"" + c;
    var prefix := schema + ".";
    var body := prefix + (QuoteEscaped(table) + c);
    ConcatAssoc("\"", Escape(table) + "\"", c);
    assert QuoteEscaped(table) + c == "\"" + rest;
    ConcatAssoc(prefix, "\"", rest);
    assert QuoteFree(prefix) by {
      forall i | 0 <= i < |prefix|
        ensures prefix[i] != '"'
      {
        if i < |schema| {
          assert IdentChar(schema[i]);
        }
      }
    }
    FirstQuote(prefix, rest);
    assert body[0] == schema[0];
    assert body[..|prefix|] == prefix;
    assert prefix[..|prefix| - 1] == schema;
    assert body[|prefix| + 1..] == rest;
    TableRoundTrip(Some(Fold(schema)), table, columns);
  }

  /** `Parse` strips `COPY ` and reads what follows. */
  lemma ParseRender(prefix: string, quotedTable: string, quotedColumns: seq<string>)
    requires |quotedColumns| > 0
    ensures Parse(Render(prefix, quotedTable, quotedColumns))
            == ParseTarget(prefix + (quotedTable + ColumnClause(quotedColumns)))
  {
    var body := prefix + (quotedTable + ColumnClause(quotedColumns));
    var cmd := Head + body;
    assert cmd[..|Head|] == Head;
    assert cmd[|Head|..] == body;
  }

  /** The corrected command names exactly the given schema, table and columns, whatever
      characters the identifiers contain, as far as quoting goes: the server's limits on
      names (non-empty, at most 63 bytes, no character with code zero) are not modelled. */
  lemma BuildEscapedRoundTrip(schema: Option<string>, table: string, columns: seq<string>)
    requires |columns| > 0
    ensures BuildEscaped(schema, table, columns).Ok?
    ensures Parse(BuildEscaped(schema, table, columns).value)
            == Some(CopyTarget(EffectiveSchema(schema), table, columns))
  {
    var r := QuoteEscaped(table) + ColumnClause(QuoteAllEscaped(columns));
    ParseRender(SchemaPrefixEscaped(schema), QuoteEscaped(table), QuoteAllEscaped(columns));
    if IsNullOrWhiteSpace(schema) {
      assert SchemaPrefixEscaped(schema) + r == r;
      TargetRoundTripNoSchema(table, columns);
    } else {
      TargetRoundTripQuoted(schema.value, table, columns);
    }
  }

  /** The command as the insert builds it names the given table and columns when no table
      or column name contains a quote character, and the schema as PostgreSQL reads an
      unquoted name: folded to lower case. */
  lemma BuildRoundTrip(schema: Option<string>, table: string, columns: seq<string>)
    requires |columns| > 0
    requires PlainSchema(schema)
    requires QuoteFree(table)
    requires forall i :: 0 <= i < |columns| ==> QuoteFree(columns[i])
    ensures Build(schema, table, columns).Ok?
    ensures Parse(Build(schema, table, columns).value)
            == Some(CopyTarget(FoldedSchema(schema), table, columns))
  {
    EscapeQuoteFree(table);
    assert Quote(table) == QuoteEscaped(table);
    forall i | 0 <= i < |columns|
      ensures QuoteAll(columns)[i] == QuoteAllEscaped(columns)[i]
    {
      EscapeQuoteFree(columns[i]);
    }
    assert QuoteAll(columns) == QuoteAllEscaped(columns);
    var r := QuoteEscaped(table) + ColumnClause(QuoteAllEscaped(columns));
    ParseRender(SchemaPrefix(schema), Quote(table), QuoteAll(columns));
    if IsNullOrWhiteSpace(schema) {
      assert SchemaPrefix(schema) + r == r;
      TargetRoundTripNoSchema(table, columns);
    } else {
      TargetRoundTripUnquoted(schema.value, table, columns);
    }
  }

  /** Without quotes, a schema name with capitals is read as another name: the command for
      the schema `Sales` names the schema `sales`, the same as the command for `sales`. */
  lemma UnquotedSchemaFolded(table: string, columns: seq<string>)
    requires |columns| > 0
    requires QuoteFree(table)
    requires forall i :: 0 <= i < |columns| ==> QuoteFree(columns[i])
    ensures Parse(Build(Some("Sales"), table, columns).value) == Some(CopyTarget(Some("sales"), table, columns))
    ensures Parse(Build(Some("Sales"), table, columns).value) == Parse(Build(Some("sales"), table, columns).value)
  {
    assert !IsWhiteSpace("Sales"[0]) && !IsWhiteSpace("sales"[0]);
    assert UnquotedIdent("Sales") && UnquotedIdent("sales");
    assert Fold("Sales") == "sales";
    assert Fold("sales") == "sales";
    BuildRoundTrip(Some("Sales"), table, columns);
    BuildRoundTrip(Some("sales"), table, columns);
  }

  /** Without escaping, a column name containing `", "` reads as two columns: two different
      column lists give the same command. */
  lemma UnescapedQuoteCollision()
    ensures Build(None, "t", ["a\", \"b"]) == Build(None, "t", ["a", "b"])
  {
    var two := QuoteAll(["a", "b"]);
    assert two[0] == "\"a\"" && two[1] == "\"b\"";
    assert two == ["\"a\"", "\"b\""];
    assert two[..1] == ["\"a\""];
    assert Join(two) == "\"a\", \"b\"";
    var one := QuoteAll(["a\", \"b"]);
    assert one[0] == "\"a\", \"b\"";
    assert one == ["\"a\", \"b\""];
  }

  /** With escaping, different targets always give different commands. */
  lemma BuildEscapedInjective(s1: Option<string>, t1: string, c1: seq<string>,
                              s2: Option<string>, t2: string, c2: seq<string>)
    requires |c1| > 0 && |c2| > 0
    requires BuildEscaped(s1, t1, c1) == BuildEscaped(s2, t2, c2)
    ensures EffectiveSchema(s1) == EffectiveSchema(s2) && t1 == t2 && c1 == c2
  {
    BuildEscapedRoundTrip(s1, t1, c1);
    BuildEscapedRoundTrip(s2, t2, c2);
  }
}

=== FILE: errors.dfy ===
/** The exceptions the bulk insert can end with, named after what goes wrong. */
module Errors {

  datatype Error =
      /** `ArgumentNullException` for the named parameter. */
    | ArgumentNull(paramName: string)
      /** The metadata lookup yields `null`. By class, no entity type maps the CLR class and
          the extension call `Relational()` is made on `null`, which EF Core rejects with an
          argument check. By table, no entity type has the table name and
          `tableMetadata.GetType()` dereferences `null` (`NullReferenceException`). */
    | MappingNotFound
      /** `Aggregate` over an empty column list throws `InvalidOperationException`. */
    | NoColumns
      /** A column whose property the CLR class does not declare: the null accessor is
          dereferenced (`NullReferenceException`). */
    | MissingAccessor
      /** The accessor belongs to a type the record is not an instance of (`TargetException`). */
    | TargetMismatch
      /** Unboxing an enumeration value whose underlying type is not `int` as an `int`
          (`InvalidCastException`). */
    | InvalidEnumCast

  /** The exceptions raised while a row is being written, after the importer was opened. */
  predicate IsRowError(e: Error)
  {
    e.MissingAccessor? || e.TargetMismatch? || e.InvalidEnumCast?
  }
}

=== FILE: metadata.dfy ===
/** The entity-framework model and the CLR objects, reduced to plain data.

    The model lists entity types; each entity type lists its mapped properties with
    the relational facts the bulk insert reads (primary-key flag, column name, CLR
    type, declared column type, nullability). A record is an object of some CLR type,
    seen through the public properties that type declares. */
module Metadata {
  import opened Wrappers

  /** A boxed property value as reflection returns it. */
  datatype Value =
    | Int32(n: int)
      /** A member of an enumeration; `int32Backed` is false when the enum's underlying type is not `int`. */
    | EnumMember(enumType: string, member: string, underlying: int, int32Backed: bool)
      /** Any other non-null value, by CLR type name and literal text. */
    | Other(clrType: string, literal: string)

  /** An object read by reflection: the keys are the public properties its run-time type
      declares, and `None` is a property holding `null`. */
  type Record = map<string, Option<Value>>

  /** A wire-level type tag of the binary COPY protocol (an `NpgsqlDbType`). */
  datatype WireType = WireType(name: string)

  /** The provider's type-mapping lookup: the wire tag for a CLR type, if it has one.
      The lookup itself belongs to the database driver and is left uninterpreted. */
  type TypeMapping = string -> Option<WireType>

  /** A mapped property of an entity type. `columnType` is the configured store type, and
      `None` (null) when none is configured. */
  datatype Property = Property(
    name: string,
    isPrimaryKey: bool,
    columnName: string,
    clrType: string,
    columnType: Option<string>,
    isNullable: bool)

  /** An entity type with its table identity; `schema` is `None` when none is configured. */
  datatype EntityType = EntityType(
    clrType: string,
    tableName: string,
    schema: Option<string>,
    properties: seq<Property>)

  /** The model of a database context: its entity types in model order. */
  datatype Model = Model(entityTypes: seq<EntityType>)

  /** A CLR class, seen through the names of the public properties it declares. */
  datatype ClrClass = ClrClass(name: string, propertyNames: set<string>)

  /** The index of the first element of `s` satisfying `p`, if there is one. */
  function FirstIndex<T>(s: seq<T>, p: T -> bool): (r: Option<nat>)
    ensures r.Some? ==> r.value < |s| && p(s[r.value])
    ensures r.Some? ==> forall j :: 0 <= j < r.value ==> !p(s[j])
    ensures r.None? ==> forall j :: 0 <= j < |s| ==> !p(s[j])
  {
    if |s| == 0 then None
    else if p(s[0]) then Some(0)
    else match FirstIndex(s[1..], p)
      case None => None
      case Some(i) => Some(i + 1)
  }

  /** The entity type that maps the given CLR class. */
  function FindEntityType(m: Model, clrType: string): (r: Option<EntityType>)
    ensures r.Some? <==> exists e :: e in m.entityTypes && e.clrType == clrType
    ensures r.Some? ==> r.value in m.entityTypes && r.value.clrType == clrType
  {
    match FirstIndex(m.entityTypes, (e: EntityType) => e.clrType == clrType)
    case None => None
    case Some(i) => Some(m.entityTypes[i])
  }

  /** The first entity type, in model order, whose table name equals `tableName`;
      a `null` table name equals no table name. */
  function FindEntityTypeByTable(m: Model, tableName: Option<string>): (r: Option<EntityType>)
    ensures r.Some? <==> tableName.Some? && exists e :: e in m.entityTypes && e.tableName == tableName.value
    ensures r.Some? ==>
              exists i :: 0 <= i < |m.entityTypes| && r.value == m.entityTypes[i]
                          && r.value.tableName == tableName.value
                          && forall j :: 0 <= j < i ==> m.entityTypes[j].tableName != tableName.value
  {
    if tableName.None? then None
    else match FirstIndex(m.entityTypes, (e: EntityType) => e.tableName == tableName.value)
      case None => None
      case Some(i) => Some(m.entityTypes[i])
  }

  /** The characters .NET's `char.IsWhiteSpace` accepts: the Unicode space, line and
      paragraph separators and the control characters U+0009..U+000D and U+0085. */
  predicate IsWhiteSpace(c: char)
  {
    || ('\t' <= c <= '\r')
    || c == ' ' || c == '\U{85}' || c == '\U{A0}' || c == '\U{1680}'
    || ('\U{2000}' <= c <= '\U{200A}')
    || c == '\U{2028}' || c == '\U{2029}' || c == '\U{202F}' || c == '\U{205F}' || c == '\U{3000}'
  }

  /** `string.IsNullOrWhiteSpace`. */
  predicate IsNullOrWhiteSpace(s: Option<string>)
  {
    s.None? || forall i :: 0 <= i < |s.value| ==> IsWhiteSpace(s.value[i])
  }

  /** The empty string is blank, and a string is blank exactly when each of two parts it
      is cut into is: one character that is not white space anywhere makes it non-blank. */
  lemma {:induction false} BlankConcat(a: string, b: string)
    ensures IsNullOrWhiteSpace(Some(""))
    ensures IsNullOrWhiteSpace(Some(a + b)) <==> IsNullOrWhiteSpace(Some(a)) && IsNullOrWhiteSpace(Some(b))
  {
    var s := a + b;
    if IsNullOrWhiteSpace(Some(s)) {
      forall i | 0 <= i < |a|
        ensures IsWhiteSpace(a[i])
      {
        assert a[i] == s[i];
      }
      forall i | 0 <= i < |b|
        ensures IsWhiteSpace(b[i])
      {
        assert b[i] == s[|a| + i];
      }
    }
    if IsNullOrWhiteSpace(Some(a)) && IsNullOrWhiteSpace(Some(b)) {
      forall i | 0 <= i < |s|
        ensures IsWhiteSpace(s[i])
      {
        if i < |a| {
          assert s[i] == a[i];
        } else {
          assert s[i] == b[i - |a|];
        }
      }
    }
  }
}

=== FILE: rowwriter.dfy ===
/** The rows the insert streams into the binary importer, as a trace of writer calls.

    For each non-null record the importer sees `StartRow` and then one field call per
    column, in column order: `WriteNull` for a null value, `Write(value, tag)` when the
    column's CLR type has a wire tag, and `Write(value, columnType)` otherwise, with an
    enumeration member unboxed to its `int` first. Null records are skipped. The first
    exception ends the stream; the events written before it stay in the trace. */
module RowWriter {
  import opened Wrappers
  import opened Metadata
  import opened Errors
  import opened Columns
  import opened Seqs

  /** A call on the binary importer. */
  datatype Event =
    | BeginBinaryImport(command: string)
    | StartRow
    | WriteNull
    | WriteTagged(value: Value, wireType: WireType)
    | WriteTyped(value: Value, dataTypeName: Option<string>)
    | Complete

  predicate IsField(e: Event)
  {
    e.WriteNull? || e.WriteTagged? || e.WriteTyped?
  }

  /** How a column without an accessor is read: `Direct` dereferences the missing accessor
      and throws; `NullConditional` (`?.`) reads it as null. */
  datatype AccessMode = Direct | NullConditional

  /** The events written so far and the exception that stopped the stream, if any. */
  datatype Stream = Stream(events: seq<Event>, failure: Option<Error>)

  /** The records that are not null, in input order. */
  function NonNull(recs: seq<Option<Record>>): (r: seq<Record>)
    ensures |r| <= |recs|
    ensures forall x :: x in r <==> Some(x) in recs
  {
    if |recs| == 0 then []
    else
      var rest := NonNull(recs[1..]);
      assert recs == [recs[0]] + recs[1..];
      if recs[0].Some? then [recs[0].value] + rest else rest
  }

  /** One record per non-null entry: only the nulls are dropped, and no record is merged
      with an equal one. */
  lemma {:induction false} NonNullCount(recs: seq<Option<Record>>)
    ensures |NonNull(recs)| == |recs| - multiset(recs)[None]
    decreases |recs|
  {
    if |recs| > 0 {
      NonNullCount(recs[1..]);
      assert recs == [recs[0]] + recs[1..];
      assert multiset(recs) == multiset([recs[0]]) + multiset(recs[1..]);
    }
  }

  /** Filtering out the nulls commutes with concatenation, so input order is kept. */
  lemma {:induction false} NonNullAppend(a: seq<Option<Record>>, b: seq<Option<Record>>)
    ensures NonNull(a + b) == NonNull(a) + NonNull(b)
    decreases |a|
  {
    if |a| > 0 {
      NonNullAppend(a[1..], b);
      assert (a + b)[1..] == a[1..] + b;
      if a[0].Some? {
        assert NonNull(a + b) == [a[0].value] + NonNull(a[1..] + b);
        assert NonNull(a) == [a[0].value] + NonNull(a[1..]);
        ConcatAssoc([a[0].value], NonNull(a[1..]), NonNull(b));
      }
    } else {
      assert a + b == b;
    }
  }

  /** The first non-null record stands after nulls only. */
  lemma {:induction false} NonNullHead(recs: seq<Option<Record>>)
    requires |NonNull(recs)| > 0
    ensures exists i :: && 0 <= i < |recs| && recs[i] == Some(NonNull(recs)[0])
                        && forall j :: 0 <= j < i ==> recs[j].None?
    decreases |recs|
  {
    if recs[0].Some? {
      assert recs[0] == Some(NonNull(recs)[0]);
    } else {
      NonNullHead(recs[1..]);
      var k :| && 0 <= k < |recs[1..]| && recs[1..][k] == Some(NonNull(recs[1..])[0])
               && forall j :: 0 <= j < k ==> recs[1..][j].None?;
      assert recs[k + 1] == Some(NonNull(recs)[0]);
      forall j | 0 <= j < k + 1
        ensures recs[j].None?
      {
        if j > 0 {
          assert recs[j] == recs[1..][j - 1];
        }
      }
    }
  }

  /** Every non-null record has every property the class declares: a batch typed by the
      class holds only its instances. */
  predicate OfClass(accessors: set<string>, recs: seq<Option<Record>>)
  {
    forall i :: 0 <= i < |recs| && recs[i].Some? ==> accessors <= recs[i].value.Keys
  }

  /** The value of column `c` in record `rec`, read through the column's accessor. */
  function ReadValue(c: Column, mode: AccessMode, rec: Record): (r: Result<Option<Value>, Error>)
    ensures r.Ok? && c.bound ==> c.propertyName in rec && r.value == rec[c.propertyName]
    ensures r.Ok? && !c.bound ==> r.value.None?
    ensures r.Err? <==> (!c.bound && mode.Direct?) || (c.bound && c.propertyName !in rec)
    ensures r.Err? ==> r.error == (if c.bound then TargetMismatch else MissingAccessor)
  {
    if !c.bound then
      if mode == NullConditional then Ok(None) else Err(MissingAccessor)
    else if c.propertyName in rec then Ok(rec[c.propertyName])
    else Err(TargetMismatch)
  }

  /** The field call for value `v` of column `c`. */
  function EncodeValue(c: Column, v: Option<Value>): (r: Result<Event, Error>)
    ensures r.Ok? ==> IsField(r.value)
    // a null value, and only a null value, is written as an explicit null
    ensures r.Ok? ==> (r.value.WriteNull? <==> v.None?)
    // a resolved tag always wins, and the value goes out unchanged
    ensures v.Some? && c.wireType.Some? ==> r == Ok(WriteTagged(v.value, c.wireType.value))
    // the declared column type is used only without a tag, and never for an enumeration member
    ensures r.Ok? && r.value.WriteTyped? ==>
              && c.wireType.None? && v.Some?
              && r.value.dataTypeName == c.columnType
              && !r.value.value.EnumMember?
              && (if v.value.EnumMember? then r.value.value == Int32(v.value.underlying) else r.value.value == v.value)
    ensures r.Err? <==> v.Some? && c.wireType.None? && v.value.EnumMember? && !v.value.int32Backed
    ensures r.Err? ==> r.error == InvalidEnumCast
  {
    match v
    case None => Ok(WriteNull)
    case Some(x) =>
      if c.wireType.Some? then Ok(WriteTagged(x, c.wireType.value))
      else if x.EnumMember? then
        if x.int32Backed then Ok(WriteTyped(Int32(x.underlying), c.columnType)) else Err(InvalidEnumCast)
      else Ok(WriteTyped(x, c.columnType))
  }

  /** The field call for column `c` of record `rec`, or the exception reading or converting it throws. */
  function FieldEvent(c: Column, mode: AccessMode, rec: Record): (r: Result<Event, Error>)
    ensures r.Err? ==> IsRowError(r.error)
  {
    match ReadValue(c, mode, rec)
    case Err(e) => Err(e)
    case Ok(v) => EncodeValue(c, v)
  }

  /** The record's row can be written in full. */
  predicate RowOk(cols: seq<Column>, mode: AccessMode, rec: Record)
  {
    EncodeFields(cols, mode, rec).failure.None?
  }

  /** The field calls for one record: the inner loop over the columns. */
  function EncodeFields(cols: seq<Column>, mode: AccessMode, rec: Record): (s: Stream)
    ensures |s.events| <= |cols|
    // the events are the field calls of the leading columns, in column order
    ensures forall i {:trigger s.events[i]} :: 0 <= i < |s.events| ==> FieldEvent(cols[i], mode, rec) == Ok(s.events[i])
    // the row is complete exactly when no column failed
    ensures s.failure.None? <==> |s.events| == |cols|
    // and otherwise it stops at the first column that failed, with that column's exception
    ensures s.failure.Some? ==> FieldEvent(cols[|s.events|], mode, rec) == Err(s.failure.value)
    decreases |cols|
  {
    if |cols| == 0 then Stream([], None)
    else
      match FieldEvent(cols[0], mode, rec)
      case Err(e) => Stream([], Some(e))
      case Ok(ev) =>
        var t := EncodeFields(cols[1..], mode, rec);
        Stream([ev] + t.events, t.failure)
  }

  /** A row can be written in full exactly when every one of its columns can. */
  lemma RowOkIff(cols: seq<Column>, mode: AccessMode, rec: Record)
    ensures RowOk(cols, mode, rec) <==> forall i :: 0 <= i < |cols| ==> FieldEvent(cols[i], mode, rec).Ok?
  {
    var s := EncodeFields(cols, mode, rec);
    if s.failure.Some? {
      assert !FieldEvent(cols[|s.events|], mode, rec).Ok?;
    } else {
      forall i | 0 <= i < |cols|
        ensures FieldEvent(cols[i], mode, rec).Ok?
      {
        assert FieldEvent(cols[i], mode, rec) == Ok(s.events[i]);
      }
    }
  }

  /** A complete row: `StartRow` and then one field call per column. */
  function Row(cols: seq<Column>, mode: AccessMode, rec: Record): seq<Event>
  {
    [StartRow] + EncodeFields(cols, mode, rec).events
  }

  /** The rows of the given records one after another. */
  function RowsOf(cols: seq<Column>, mode: AccessMode, rs: seq<Record>): seq<Event>
  {
    if |rs| == 0 then [] else Row(cols, mode, rs[0]) + RowsOf(cols, mode, rs[1..])
  }

  /** The rows of a batch: the outer loop over the records. */
  function EncodeRows(cols: seq<Column>, mode: AccessMode, recs: seq<Option<Record>>): (s: Stream)
    // only rows and fields: the importer is neither opened nor completed here
    ensures forall e :: e in s.events ==> e.StartRow? || IsField(e)
    // the batch streams through exactly when every non-null record can be written
    ensures s.failure.None? <==> forall r :: r in NonNull(recs) ==> RowOk(cols, mode, r)
    // a batch can only fail with an exception raised while writing a row
    ensures s.failure.Some? ==> IsRowError(s.failure.value)
    decreases |recs|
  {
    if |recs| == 0 then Stream([], None)
    else
      match recs[0]
      case None =>
        assert NonNull(recs) == NonNull(recs[1..]);
        EncodeRows(cols, mode, recs[1..])
      case Some(r) =>
        var row := EncodeFields(cols, mode, r);
        assert NonNull(recs) == [r] + NonNull(recs[1..]);
        if row.failure.Some? then
          assert r in NonNull(recs);
          Stream([StartRow] + row.events, row.failure)
        else
          var rest := EncodeRows(cols, mode, recs[1..]);
          Stream([StartRow] + row.events + rest.events, rest.failure)
  }

  /** When every non-null record has the property of every bound column, no accessor meets
      a record of another type: the batch never fails with `TargetMismatch`. */
  lemma {:induction false} EncodeRowsNoMismatch(cols: seq<Column>, mode: AccessMode, recs: seq<Option<Record>>)
    requires forall c, r :: c in cols && c.bound && Some(r) in recs ==> c.propertyName in r
    ensures EncodeRows(cols, mode, recs).failure != Some(TargetMismatch)
    decreases |recs|
  {
    if |recs| > 0 {
      assert forall r :: Some(r) in recs[1..] ==> Some(r) in recs;
      EncodeRowsNoMismatch(cols, mode, recs[1..]);
      if recs[0].Some? {
        var r := recs[0].value;
        var row := EncodeFields(cols, mode, r);
        if row.failure.Some? {
          var c := cols[|row.events|];
          assert c in cols;
          assert FieldEvent(c, mode, r) == Err(row.failure.value);
        }
      }
    }
  }

  /** A batch that streams through is the rows of its non-null records, in input order. */
  lemma {:induction false} EncodeRowsSuccess(cols: seq<Column>, mode: AccessMode, recs: seq<Option<Record>>)
    requires EncodeRows(cols, mode, recs).failure.None?
    ensures EncodeRows(cols, mode, recs).events == RowsOf(cols, mode, NonNull(recs))
    decreases |recs|
  {
    if |recs| > 0 {
      var tail := NonNull(recs[1..]);
      EncodeRowsSuccess(cols, mode, recs[1..]);
      match recs[0]
      case None =>
        assert NonNull(recs) == tail;
      case Some(r) =>
        var nn := NonNull(recs);
        assert nn == [r] + tail;
        RowsCons(cols, mode, r, tail);
    }
  }

  /** The rows of `[r] + rs` are the row of `r` followed by the rows of `rs`. */
  lemma RowsCons(cols: seq<Column>, mode: AccessMode, r: Record, rs: seq<Record>)
    ensures RowsOf(cols, mode, [r] + rs) == Row(cols, mode, r) + RowsOf(cols, mode, rs)
  {
    assert ([r] + rs)[1..] == rs;
  }

  /** A row holds exactly one `StartRow`, at its head. */
  lemma RowStartsOnce(cols: seq<Column>, mode: AccessMode, rec: Record)
    ensures multiset(Row(cols, mode, rec))[StartRow] == 1
  {
    var fields := EncodeFields(cols, mode, rec).events;
    forall i | 0 <= i < |fields|
      ensures fields[i] != StartRow
    {
      assert FieldEvent(cols[i], mode, rec) == Ok(fields[i]);
    }
    assert StartRow !in fields;
    assert Row(cols, mode, rec) == [StartRow] + fields;
  }

  /** A batch that streams through starts one row per non-null record. */
  lemma {:induction false} EncodeRowsCount(cols: seq<Column>, mode: AccessMode, recs: seq<Option<Record>>)
    requires EncodeRows(cols, mode, recs).failure.None?
    ensures multiset(EncodeRows(cols, mode, recs).events)[StartRow] == |NonNull(recs)|
    decreases |recs|
  {
    if |recs| > 0 {
      EncodeRowsCount(cols, mode, recs[1..]);
      match recs[0]
      case None =>
        assert NonNull(recs) == NonNull(recs[1..]);
      case Some(r) =>
        assert NonNull(recs) == [r] + NonNull(recs[1..]);
        RowStartsOnce(cols, mode, r);
        assert EncodeRows(cols, mode, recs).events
               == Row(cols, mode, r) + EncodeRows(cols, mode, recs[1..]).events;
    }
  }

  /** A complete row has one event more than there are columns. */
  lemma RowLength(cols: seq<Column>, mode: AccessMode, rec: Record)
    requires RowOk(cols, mode, rec)
    ensures |Row(cols, mode, rec)| == |cols| + 1
  {
  }

  /** Where each event of a streamed batch sits: with `w` the width of a row, the `k`-th
      non-null record's `StartRow` is at `k * w` and its `i`-th column's field call right
      after, at `k * w + 1 + i`. */
  lemma RowsLayout(cols: seq<Column>, mode: AccessMode, recs: seq<Option<Record>>, k: nat, i: nat)
    requires EncodeRows(cols, mode, recs).failure.None?
    requires k < |NonNull(recs)| && i < |cols|
    ensures |EncodeRows(cols, mode, recs).events| == |NonNull(recs)| * (|cols| + 1)
    ensures k * (|cols| + 1) + 1 + i < |EncodeRows(cols, mode, recs).events|
    ensures EncodeRows(cols, mode, recs).events[k * (|cols| + 1)] == StartRow
    ensures Ok(EncodeRows(cols, mode, recs).events[k * (|cols| + 1) + 1 + i])
            == FieldEvent(cols[i], mode, NonNull(recs)[k])
  {
    RowsAt(cols, mode, recs, k, i);
    RowStartIsProduct(k, |cols| + 1);
    RowStartIsProduct(|NonNull(recs)|, |cols| + 1);
  }

  /** `RowsLayout`, with row offsets counted out row by row. */
  lemma {:induction false} RowsAt(cols: seq<Column>, mode: AccessMode, recs: seq<Option<Record>>, k: nat, i: nat)
    requires EncodeRows(cols, mode, recs).failure.None?
    requires k < |NonNull(recs)| && i < |cols|
    ensures |EncodeRows(cols, mode, recs).events| == RowStart(|NonNull(recs)|, |cols| + 1)
    ensures RowStart(k, |cols| + 1) + 1 + i < |EncodeRows(cols, mode, recs).events|
    ensures EncodeRows(cols, mode, recs).events[RowStart(k, |cols| + 1)] == StartRow
    ensures Ok(EncodeRows(cols, mode, recs).events[RowStart(k, |cols| + 1) + 1 + i])
            == FieldEvent(cols[i], mode, NonNull(recs)[k])
    decreases |recs|
  {
    EncodeRowsLength(cols, mode, recs);
    RowStartBound(k, |NonNull(recs)|, |cols| + 1);
    if recs[0].None? {
      assert NonNull(recs) == NonNull(recs[1..]);
      RowsAt(cols, mode, recs[1..], k, i);
    } else if k == 0 {
      RowsAtHead(cols, mode, recs, i);
    } else {
      RowsAt(cols, mode, recs[1..], k - 1, i);
      RowsAtShift(cols, mode, recs, k, i);
    }
  }

  /** The first non-null record's row opens the stream when it is the first record. */
  lemma RowsAtHead(cols: seq<Column>, mode: AccessMode, recs: seq<Option<Record>>, i: nat)
    requires EncodeRows(cols, mode, recs).failure.None?
    requires |recs| > 0 && recs[0].Some? && i < |cols|
    ensures 1 + i < |EncodeRows(cols, mode, recs).events|
    ensures EncodeRows(cols, mode, recs).events[0] == StartRow
    ensures Ok(EncodeRows(cols, mode, recs).events[1 + i]) == FieldEvent(cols[i], mode, NonNull(recs)[0])
  {
    var r := recs[0].value;
    assert NonNull(recs) == [r] + NonNull(recs[1..]);
    assert r in NonNull(recs);
    RowLength(cols, mode, r);
    var row := Row(cols, mode, r);
    var events := EncodeRows(cols, mode, recs).events;
    assert events == row + EncodeRows(cols, mode, recs[1..]).events;
    assert events[1 + i] == row[1 + i] == EncodeFields(cols, mode, r).events[i];
  }

  /** Past a leading non-null record, row `k` of the batch is row `k - 1` of the rest. */
  lemma RowsAtShift(cols: seq<Column>, mode: AccessMode, recs: seq<Option<Record>>, k: nat, i: nat)
    requires EncodeRows(cols, mode, recs).failure.None?
    requires |recs| > 0 && recs[0].Some? && 0 < k < |NonNull(recs)| && i < |cols|
    requires RowStart(k - 1, |cols| + 1) + 1 + i < |EncodeRows(cols, mode, recs[1..]).events|
    requires EncodeRows(cols, mode, recs[1..]).events[RowStart(k - 1, |cols| + 1)] == StartRow
    requires Ok(EncodeRows(cols, mode, recs[1..]).events[RowStart(k - 1, |cols| + 1) + 1 + i])
             == FieldEvent(cols[i], mode, NonNull(recs[1..])[k - 1])
    ensures RowStart(k, |cols| + 1) + 1 + i < |EncodeRows(cols, mode, recs).events|
    ensures EncodeRows(cols, mode, recs).events[RowStart(k, |cols| + 1)] == StartRow
    ensures Ok(EncodeRows(cols, mode, recs).events[RowStart(k, |cols| + 1) + 1 + i])
            == FieldEvent(cols[i], mode, NonNull(recs)[k])
  {
    var w := |cols| + 1;
    var r := recs[0].value;
    var tail := NonNull(recs[1..]);
    assert NonNull(recs) == [r] + tail;
    assert r in NonNull(recs);
    assert NonNull(recs)[k] == tail[k - 1];
    RowLength(cols, mode, r);
    var events := EncodeRows(cols, mode, recs).events;
    var rest := EncodeRows(cols, mode, recs[1..]).events;
    assert events == Row(cols, mode, r) + rest;
    var b := RowStart(k - 1, w);
    assert events[w + b] == rest[b];
    assert events[w + b + 1 + i] == rest[b + 1 + i];
  }

  /** A batch that streams through has one row of `|cols| + 1` events per non-null record. */
  lemma {:induction false} EncodeRowsLength(cols: seq<Column>, mode: AccessMode, recs: seq<Option<Record>>)
    requires EncodeRows(cols, mode, recs).failure.None?
    ensures |EncodeRows(cols, mode, recs).events| == RowStart(|NonNull(recs)|, |cols| + 1)
    decreases |recs|
  {
    if |recs| > 0 {
      var tail := NonNull(recs[1..]);
      EncodeRowsLength(cols, mode, recs[1..]);
      match recs[0]
      case None =>
        assert NonNull(recs) == tail;
      case Some(r) =>
        assert NonNull(recs) == [r] + tail;
        assert r in NonNull(recs);
        RowLength(cols, mode, r);
        assert EncodeRows(cols, mode, recs).events
               == Row(cols, mode, r) + EncodeRows(cols, mode, recs[1..]).events;
    }
  }

  /** A null record anywhere in the batch changes nothing in the stream. */
  lemma {:induction false} NullRecordSkipped(cols: seq<Column>, mode: AccessMode, a: seq<Option<Record>>, b: seq<Option<Record>>)
    ensures EncodeRows(cols, mode, a + [None] + b) == EncodeRows(cols, mode, a + b)
    decreases |a|
  {
    if |a| == 0 {
      assert a + [None] + b == [None] + b;
      assert ([None] + b)[1..] == b;
      assert a + b == b;
    } else {
      NullRecordSkipped(cols, mode, a[1..], b);
      assert (a + [None] + b)[0] == a[0] == (a + b)[0];
      assert (a + [None] + b)[1..] == a[1..] + [None] + b;
      assert (a + b)[1..] == a[1..] + b;
      EncodeRowsSameHead(cols, mode, a + [None] + b, a + b);
    }
  }

  /** Two batches with the same first record and equally streamed rests stream alike. */
  lemma EncodeRowsSameHead(cols: seq<Column>, mode: AccessMode, x: seq<Option<Record>>, y: seq<Option<Record>>)
    requires |x| > 0 && |y| > 0 && x[0] == y[0]
    requires EncodeRows(cols, mode, x[1..]) == EncodeRows(cols, mode, y[1..])
    ensures EncodeRows(cols, mode, x) == EncodeRows(cols, mode, y)
  {
  }

  /** Removing a null record leaves the non-null records as they were. */
  lemma {:induction false} NonNullSkipsNull(a: seq<Option<Record>>, b: seq<Option<Record>>)
    ensures NonNull(a + [None] + b) == NonNull(a + b)
    decreases |a|
  {
    if |a| == 0 {
      assert a + [None] + b == [None] + b;
      assert ([None] + b)[1..] == b;
      assert a + b == b;
    } else {
      NonNullSkipsNull(a[1..], b);
      assert (a + [None] + b)[0] == a[0] == (a + b)[0];
      assert (a + [None] + b)[1..] == a[1..] + [None] + b;
      assert (a + b)[1..] == a[1..] + b;
    }
  }

  /** A batch that fails has written every non-null record before the first one that cannot
      be written in full, then that record's `StartRow` and its fields up to the failing
      column; the exception is that column's. */
  lemma {:induction false} EncodeRowsFailure(cols: seq<Column>, mode: AccessMode, recs: seq<Option<Record>>)
    requires EncodeRows(cols, mode, recs).failure.Some?
    ensures exists k :: FailsAt(cols, mode, recs, k)
    decreases |recs|
  {
    var nn := NonNull(recs);
    var tail := NonNull(recs[1..]);
    match recs[0]
    case None =>
      EncodeRowsFailure(cols, mode, recs[1..]);
      assert nn == tail;
      var k :| FailsAt(cols, mode, recs[1..], k);
      assert FailsAt(cols, mode, recs, k);
    case Some(r) =>
      assert nn == [r] + tail;
      var row := EncodeFields(cols, mode, r);
      if row.failure.Some? {
        assert nn[..0] == [];
        assert RowsOf(cols, mode, nn[..0]) == [];
        assert FailsAt(cols, mode, recs, 0);
      } else {
        EncodeRowsFailure(cols, mode, recs[1..]);
        var k' :| FailsAt(cols, mode, recs[1..], k');
        FailsAtCons(cols, mode, recs, k');
      }
  }

  /** The batch fails at its `k`-th non-null record, having written all records before it in full. */
  predicate FailsAt(cols: seq<Column>, mode: AccessMode, recs: seq<Option<Record>>, k: nat)
  {
    var nn := NonNull(recs);
    var s := EncodeRows(cols, mode, recs);
    && k < |nn|
    && !RowOk(cols, mode, nn[k])
    && (forall j :: 0 <= j < k ==> RowOk(cols, mode, nn[j]))
    && s.events == RowsOf(cols, mode, nn[..k]) + Row(cols, mode, nn[k])
    && s.failure == EncodeFields(cols, mode, nn[k]).failure
  }

  /** A failure point of the rest of the batch, shifted past a leading record that is written in full. */
  lemma FailsAtCons(cols: seq<Column>, mode: AccessMode, recs: seq<Option<Record>>, k: nat)
    requires |recs| > 0 && recs[0].Some?
    requires EncodeFields(cols, mode, recs[0].value).failure.None?
    requires FailsAt(cols, mode, recs[1..], k)
    ensures FailsAt(cols, mode, recs, k + 1)
  {
    var r := recs[0].value;
    var tail := NonNull(recs[1..]);
    var nn := NonNull(recs);
    assert nn == [r] + tail;
    assert nn[k + 1] == tail[k];
    FailsAtConsRowsOk(cols, mode, r, tail, k);
    FailsAtConsEvents(cols, mode, recs, k);
  }

  lemma FailsAtConsRowsOk(cols: seq<Column>, mode: AccessMode, r: Record, tail: seq<Record>, k: nat)
    requires k < |tail| && RowOk(cols, mode, r)
    requires forall j :: 0 <= j < k ==> RowOk(cols, mode, tail[j])
    ensures forall j :: 0 <= j < k + 1 ==> RowOk(cols, mode, ([r] + tail)[j])
  {
    assert forall j :: 0 < j < k + 1 ==> ([r] + tail)[j] == tail[j - 1];
  }

  lemma FailsAtConsEvents(cols: seq<Column>, mode: AccessMode, recs: seq<Option<Record>>, k: nat)
    requires |recs| > 0 && recs[0].Some?
    requires EncodeFields(cols, mode, recs[0].value).failure.None?
    requires k < |NonNull(recs[1..])|
    requires EncodeRows(cols, mode, recs[1..]).events
             == RowsOf(cols, mode, NonNull(recs[1..])[..k]) + Row(cols, mode, NonNull(recs[1..])[k])
    ensures k + 1 < |NonNull(recs)|
    ensures EncodeRows(cols, mode, recs).events
            == RowsOf(cols, mode, NonNull(recs)[..k + 1]) + Row(cols, mode, NonNull(recs)[k + 1])
  {
    var r := recs[0].value;
    var tail := NonNull(recs[1..]);
    EncodeRowsConsOk(cols, mode, recs);
    ShiftedRows(cols, mode, r, tail, k, EncodeRows(cols, mode, recs[1..]).events);
  }

  /** A leading non-null record that can be written contributes its row ahead of the rest. */
  lemma EncodeRowsConsOk(cols: seq<Column>, mode: AccessMode, recs: seq<Option<Record>>)
    requires |recs| > 0 && recs[0].Some?
    requires EncodeFields(cols, mode, recs[0].value).failure.None?
    ensures NonNull(recs) == [recs[0].value] + NonNull(recs[1..])
    ensures EncodeRows(cols, mode, recs).events
            == Row(cols, mode, recs[0].value) + EncodeRows(cols, mode, recs[1..]).events
  {
  }

  lemma ShiftedRows(cols: seq<Column>, mode: AccessMode, r: Record, tail: seq<Record>, k: nat, rest: seq<Event>)
    requires k < |tail|
    requires rest == RowsOf(cols, mode, tail[..k]) + Row(cols, mode, tail[k])
    ensures Row(cols, mode, r) + rest
            == RowsOf(cols, mode, ([r] + tail)[..k + 1]) + Row(cols, mode, ([r] + tail)[k + 1])
  {
    PrefixRows(cols, mode, r, tail, k);
    assert ([r] + tail)[k + 1] == tail[k];
    var head := Row(cols, mode, r);
    var before := RowsOf(cols, mode, tail[..k]);
    var last := Row(cols, mode, tail[k]);
    ConcatAssoc(head, before, last);
  }

  lemma PrefixRows(cols: seq<Column>, mode: AccessMode, r: Record, tail: seq<Record>, k: nat)
    requires k <= |tail|
    ensures RowsOf(cols, mode, ([r] + tail)[..k + 1])
            == Row(cols, mode, r) + RowsOf(cols, mode, tail[..k])
  {
    assert ([r] + tail)[..k + 1] == [r] + tail[..k];
    RowsCons(cols, mode, r, tail[..k]);
  }
}

=== FILE: seqs.dfy ===
/** Row offsets in a stream of fixed-width rows. */
module Seqs {

  /** Multiplication distributes over a successor. */
  lemma MulSucc(a: nat, w: nat)
    ensures (a + 1) * w == w + a * w
  {
  }

  /** Where row `k` starts when every row has `w` elements, counted out row by row. */
  function RowStart(k: nat, w: nat): nat
  {
    if k == 0 then 0 else w + RowStart(k - 1, w)
  }

  /** Counting out `k` rows of width `w` gives `k * w`. */
  lemma {:induction false} RowStartIsProduct(k: nat, w: nat)
    ensures RowStart(k, w) == k * w
  {
    if k > 0 {
      RowStartIsProduct(k - 1, w);
      MulSucc(k - 1, w);
    }
  }

  /** Row `k` of `n` rows of width `w` lies inside the `RowStart(n, w)` elements. */
  lemma {:induction false} RowStartBound(k: nat, n: nat, w: nat)
    requires k < n
    ensures RowStart(k, w) + w <= RowStart(n, w)
  {
    if k + 1 < n {
      RowStartBound(k, n - 1, w);
    }
  }

  /** Concatenation is associative. */
  lemma ConcatAssoc<T>(a: seq<T>, b: seq<T>, c: seq<T>)
    ensures a + (b + c) == (a + b) + c
  {
  }
}

=== FILE: wrappers.dfy ===
/** Option and Result, the two failure-carrying datatypes the model uses in place of
    null references and thrown exceptions. */
module Wrappers {

  /** A value that may be absent: `None` plays the part of a .NET `null`. */
  datatype Option<+T> = None | Some(value: T)

  /** Either a value or the exception that an operation throws instead. */
  datatype Result<+T, +E> = Ok(value: T) | Err(error: E)
}
